=== FILE: README.md ===
# Taiwan lottery number picker: a Dafny model

The system has two parts. The serverless endpoint `api/analyze-lottery.js` takes a game type (`superLotto` or `lotto649`). It scrapes the draw-history table of the Taiwan Lottery site. When nothing usable is scraped it falls back to 50 synthetic draws. It then counts how often each ball number occurs, ranks the numbers by count, and returns the ten hottest numbers, the ten coldest numbers and a six-number "AI recommendation" (three hot, one cold, two random, sorted). The React page `src/App.jsx` draws numbers locally: six of 1..38 plus a special in 1..8 for super lotto, six of 1..49 for lotto 649, and three of 1..99 plus three of 100..999 for the scratch game. It animates a roll, clears the board on a game change, and uncovers scratch cards on click.

The model is a set of pure functions over immutable values.

- **Randomness** is an explicit oracle: a sequence of reals in [0, 1), one per `Math.random()` call. `Math.floor(Math.random() * k)` is modelled as `Scale(r, k)`, the integer part of the exact real product. Every property holds for every oracle.
- **Unbounded loops.** The source's `while (set.size < k)` loops can only stop after enough new values come up. They are modelled with the oracle as fuel. Once the oracle runs out, each missing value is the first pool value not yet chosen, which is a value the loop could also have drawn.
- **The bounded loop** of `generateUniqueNumbers` (capped at 1000 iterations) is modelled exactly. It is paired with a reference definition: the first-occurrence list of the first `k` picks.
- **The scraped page** arrives as rows: each row is its text and its `<span>` descendants, each span an id and a text. `parseInt(text, 10)` is modelled on JavaScript's whitespace set, an optional sign and the longest digit prefix.
- **Page state** is one `UiState` value. Each handler maps it to the next state.

Modules follow the program: `Common` (options, the oracle, sequence predicates), `Text` (trimming, `parseInt`, decimal text), `Sorting` (numeric sort), `Lottery` (games, dispatch, draws), `Scrape` (row normalisation), `Sampling` (the set-filling loop), `Fallback` (synthetic history), `Frequency` (table, ranking, hot and cold slices), `Recommend` (`generateAiNumbers`), `Handler` (the request handler) and `Ui` (the page).

## Model

| member | source | states |
|---|---|---|
| Common.Scale | api/analyze-lottery.js:100 | `Math.floor(r * k)` is an index below `k`, and it is the integer part of `r * k` |
| Common.ScaleReaches | api/analyze-lottery.js:100 | every index below `k` is `Math.floor(r * k)` for some value `r` of `[0, 1)` |
| Common.Dedup | src/App.jsx:62-68 | a JavaScript `Set` filled from a list and read back with `Array.from` holds no repeats, and it holds exactly the list's values |
| Common.DedupOntoSnoc | src/App.jsx:64-66 | adding one more value to the Set leaves it unchanged when the value is already present, and appends it otherwise |
| Common.LastK | api/analyze-lottery.js:128 | for `k > 0`, `slice(-k)` is the last `k` elements in their order, or the whole list when it is shorter |
| Common.Reverse | api/analyze-lottery.js:128 | `reverse()` keeps the length and puts element `i` at position `length - 1 - i` |
| Common.DedupInRange | src/App.jsx:64-68 | removing repeats keeps every value inside the range the picks came from |
| Text.BlankIffAllSpace | api/analyze-lottery.js:57-58 | a row counts as empty after `trim()` exactly when every character of its text is JavaScript whitespace |
| Text.ParseInt | api/analyze-lottery.js:67 | `parseInt(s, 10)` is `NaN` exactly when no digit follows the leading whitespace and an optional sign |
| Text.SignFree | api/analyze-lottery.js:67 | `parseInt` drops at most one leading sign: the rest is a suffix of the text, one character shorter exactly when the text starts with `+` or `-` |
| Text.IntToString | src/App.jsx:57 | `${n}` starts with `-` exactly for negative numbers, has at least one digit after it, and starts with `0` only for zero |
| Text.ParseIntOfNatString | src/App.jsx:55-58 | `parseInt` reads back a natural number's decimal text, both without and with one leading `0` |
| Text.ParseIntOfPadded | src/App.jsx:57 | a leading `0` before a digit string leaves the value `parseInt` reads unchanged |
| Text.ParseIntOfIntToString | api/analyze-lottery.js:123-125 | `parseInt` inverts the decimal text of every integer, so the table's string keys map back to the ball numbers |
| Sorting.InsertAscending | api/analyze-lottery.js:149 | inserting into a sorted list keeps it sorted, grows it by one, and puts the smaller of the value and the old head first |
| Sorting.InsertAscendingPermutes | api/analyze-lottery.js:149 | insertion adds exactly one copy of the value and loses nothing |
| Sorting.InsertionSort | api/analyze-lottery.js:149 | insertion sort returns a sorted permutation of its input |
| Sorting.SortAscending | api/analyze-lottery.js:149 | the numeric sort returns a non-decreasing permutation of its input |
| Sorting.SortDistinct | api/analyze-lottery.js:149 | sorting a list without repeats gives a strictly ascending list with the same values |
| Sorting.SortInRange | src/App.jsx:69 | sorting keeps every value inside a range that held them all |
| Lottery.ParseGame | api/analyze-lottery.js:21-40 | a missing `type` means super lotto; a present `type` is accepted exactly when it is `superLotto` or `lotto649`; an accepted game's name is the query text |
| Lottery.MaxNum | api/analyze-lottery.js:26-37 | the largest ball number is 38 for super lotto and 49 for lotto 649, at least the 20 two disjoint slices of ten need |
| Scrape.Collect | api/analyze-lottery.js:65-74 | a span selector yields at most one number per span |
| Scrape.CollectSingle | api/analyze-lottery.js:65-74 | on one span the selector yields its number when the id contains the pattern and the text parses, and nothing otherwise |
| Scrape.CollectAppend | api/analyze-lottery.js:66-75 | a span selector collects in document order: the values from two blocks of spans are the values from each block, concatenated |
| Scrape.SpecialTokens | api/analyze-lottery.js:70-83 | for both games the special candidates are exactly the `No7` spans' values: every id containing `SNo7` contains `No7`, so lotto 649's second selector only runs when it finds nothing |
| Scrape.DateText | api/analyze-lottery.js:87 | the date text is empty when no span id contains `DrawDate` |
| Scrape.DateTextSingle | api/analyze-lottery.js:87 | on one span the date text is its text when the id contains `DrawDate`, and empty otherwise |
| Scrape.DateTextAppend | api/analyze-lottery.js:87 | the date spans' texts are joined in document order: two blocks of spans give the two texts concatenated |
| Scrape.FirstSpecial | api/analyze-lottery.js:89 | `special[0] \|\| null` yields a special exactly when a first candidate exists and is not 0, and then it is that candidate |
| Scrape.ParseRow | api/analyze-lottery.js:55-91 | a row becomes a draw exactly when its trimmed text is non-empty and at least six ball spans parse; the draw holds the first six balls, the first special candidate and the date spans' text |
| Scrape.Accept | api/analyze-lottery.js:85-91 | a row adds one draw of six numbers when it parses, and nothing otherwise |
| Scrape.ScrapeRows | api/analyze-lottery.js:55-92 | the history holds at most one draw per table row |
| Scrape.ScrapeRowsSingle | api/analyze-lottery.js:85-91 | on one row the loop appends exactly that row's accepted draw, or nothing |
| Scrape.ScrapedHaveSixNumbers | api/analyze-lottery.js:85-88 | every scraped draw has exactly six numbers |
| Scrape.ScrapeEmptyIff | api/analyze-lottery.js:55-96 | the scraped history is empty, so the fallback runs, exactly when every row is skipped |
| Scrape.ScrapeRowsAppend | api/analyze-lottery.js:55-92 | rows are appended in table order: scraping two blocks of rows is scraping each block and concatenating the results |
| Sampling.Fill | api/analyze-lottery.js:135-148 | the set-filling loop ends with exactly the target number of distinct values; it keeps what the set already held and adds only pool values; it consumes a prefix of the oracle |
| Sampling.FillInRange | api/analyze-lottery.js:100 | a set filled from a pool inside a range stays inside that range |
| Sampling.RangeRoom | api/analyze-lottery.js:100 | `1..maxNum` holds enough unused values to finish any fill whose target is at most `maxNum` |
| Fallback.SyntheticLabel | api/analyze-lottery.js:102 | a synthetic label is longer than its fixed text `模擬第 ` and ` 期` |
| Fallback.SyntheticLabelNumber | api/analyze-lottery.js:102 | a synthetic label is `模擬第 `, then a text `parseInt` reads as the draw index, then ` 期` |
| Fallback.SyntheticLabelsDistinct | api/analyze-lottery.js:98-104 | different synthetic draws carry different labels |
| Fallback.SyntheticDraw | api/analyze-lottery.js:99-105 | a synthetic draw has six distinct numbers in `1..maxNum`, a special in `1..8`, and its label |
| Fallback.SynthesizeFrom | api/analyze-lottery.js:98-106 | the synthetic loop from `i` yields `50 - i` valid draws, labelled `i`, `i + 1`, ... in order |
| Fallback.History | api/analyze-lottery.js:94-107 | the analysed history is never empty; a non-empty scrape is used unchanged; otherwise it is 50 valid synthetic draws labelled `模擬第 k 期` |
| Frequency.EmptyTable | api/analyze-lottery.js:113-114 | the initial table has exactly the keys `1..maxNum`, all 0 |
| Frequency.CountNumbers | api/analyze-lottery.js:117-119 | counting one draw adds each key's multiplicity in the draw and ignores values that are not keys |
| Frequency.Tally | api/analyze-lottery.js:116-120 | counting all draws adds each key's occurrences over the whole history and keeps the keys |
| Frequency.FrequencyTable | api/analyze-lottery.js:113-120 | the table has exactly the keys `1..maxNum`, each holding how often that number occurs among the draws' main numbers |
| Frequency.FrequencyIgnoresSpecials | api/analyze-lottery.js:116-120 | histories that agree on every draw's main numbers have the same table, whatever their specials and dates |
| Frequency.OccurrencesBound | api/analyze-lottery.js:116-120 | in draws without repeats, a number present in every draw has count equal to the number of draws, and no number exceeds that |
| Frequency.InsertByCount | api/analyze-lottery.js:123-124 | stable insertion by descending count keeps counts non-increasing and adds exactly one copy of the value |
| Frequency.SortByCount | api/analyze-lottery.js:123-124 | the sort by `b - a` returns a permutation whose counts never increase |
| Frequency.SortAscendingInputRanked | api/analyze-lottery.js:123-125 | because object keys are enumerated ascending and the sort is stable, numbers with equal counts end up in ascending order |
| Frequency.RankedUnique | api/analyze-lottery.js:123-125 | two ranked lists with the same values are equal: the ranking order is total |
| Frequency.Ranking | api/analyze-lottery.js:123-125 | `sortedNumbers` is a permutation of `1..maxNum`, ordered by count descending and by number ascending among equal counts |
| Frequency.RankingCharacterised | api/analyze-lottery.js:123-125 | any permutation of `1..maxNum` with non-increasing counts and ascending ties is `sortedNumbers` itself |
| Frequency.HotCold | api/analyze-lottery.js:127-128 | hot is the first ten of the ranking and cold the last ten reversed: ten distinct in-range numbers each, sharing none; every number outside hot ranks after the tenth hot number and every number outside cold ranks before the tenth cold one; hot runs in ranking order and cold in reverse ranking order; every hot count is at least every cold count, and the first hot and first cold numbers hold the largest and smallest counts |
| Frequency.EndsAreExtremes | api/analyze-lottery.js:127-128 | in a ranking of `1..maxNum`, a number outside the first ten ranks after the tenth, and a number outside the last ten ranks before the last-but-nine |
| Frequency.RankToCount | api/analyze-lottery.js:113-128 | on a table of occurrence counts, the ranking facts of the slices hold with ranking read as "more occurrences, or as many and a smaller number" |
| Frequency.HotColdCounts | api/analyze-lottery.js:113-128 | hot is the ten numbers occurring most in the history and cold the ten occurring least, ties broken towards the smaller number: every other number occurs no more often than the tenth hot one and no less often than the tenth cold one, with the same ordering facts as the ranking |
| Frequency.HistorySlices | api/analyze-lottery.js:113-128 | a history's hot and cold slices are ten distinct in-range numbers each, sharing none, and are the ten most and ten least frequent numbers of the history, stated on occurrence counts alone |
| Recommend.PickHot | api/analyze-lottery.js:135-138 | the first loop picks three distinct hot numbers |
| Recommend.PickCold | api/analyze-lottery.js:140-143 | the second loop keeps the three hot picks and adds one cold number |
| Recommend.PickRandom | api/analyze-lottery.js:145-148 | the third loop keeps the four picks and tops the set up to six distinct numbers in `1..maxNum` |
| Recommend.HotAndColdKept | api/analyze-lottery.js:135-149 | the three hot picks and the cold pick survive the random fill and the sort |
| Recommend.AiNumbers | api/analyze-lottery.js:132-150 | the recommendation is six strictly ascending numbers in `1..maxNum`, containing at least three hot numbers and at least one cold number |
| Handler.Summarise | api/analyze-lottery.js:109-165 | a non-empty history gives a well-formed analysis that reports the history's length and first draw, whose hot and cold numbers are the history's ten most and ten least frequent numbers, ties towards the smaller number |
| Handler.Analyze | api/analyze-lottery.js:94-165 | whatever the row loop collected, the response body is well formed; a non-empty scrape reports its own length and first row; an empty one reports 50 draws and a valid synthetic last draw; `lastDraw` is always the analysed history's first entry; hot and cold are the ten most and least frequent numbers of the analysed history |
| Handler.Handle | api/analyze-lottery.js:20-174 | status 400 exactly for an unsupported type; status 500 with the error's message exactly when the fetch of a supported game fails; otherwise a well-formed body whose `gameType` echoes the query, which reports the scraped rows' length and first row, or 50 synthetic draws when none was scraped; `lastDraw` is the analysed history's first entry; hot and cold the analysed history's ten most and ten least frequent numbers |
| Handler.EmptyScrapeReportsFirstSynthetic | api/analyze-lottery.js:163 | with nothing scraped, `lastDraw` is synthetic draw 0, labelled `模擬第 0 期` |
| Handler.BadTypeIgnoresFetch | api/analyze-lottery.js:38-40 | an unsupported type is refused whatever the network and the random source would have produced |
| Ui.FormatNumber | src/App.jsx:55-58 | `null` shows as `??`; values below 10 get a leading `0`; the label of a non-negative value reads back as that value, and values below 100 take two characters |
| Ui.PickValue | src/App.jsx:65 | one pick lies in `min..max` |
| Ui.Picks | src/App.jsx:64-67 | `k` iterations produce `k` picks, all in `min..max` |
| Ui.Gather | src/App.jsx:63-67 | the loop's Set after it stops is the first-occurrence list of the picks so far; it stops with `count` values or after 1000 iterations; it never holds more than `count` |
| Ui.GatherLastShort | src/App.jsx:64 | the loop runs another iteration only on a Set still short of `count`: its last iteration began short |
| Ui.SetGrows | src/App.jsx:65 | the Set never shrinks from one iteration to a later one |
| Ui.ShortBeforeStop | src/App.jsx:64-67 | a loop whose last iteration began short was short before every earlier iteration too |
| Ui.GenerateUniqueNumbers | src/App.jsx:61-70 | the result has no repeats, lies in `min..max` and holds at most `count` values; fewer than `count` only after all 1000 iterations; it stops at the first iteration that leaves `count` values, as the Set was short before every iteration it ran; unsorted it is the first-occurrence list of the picks, sorted it is that list strictly ascending |
| Ui.Arrange | src/App.jsx:68-69 | `Array.from` keeps the Set's order, and the sort option makes it strictly ascending without changing its values |
| Ui.Initial | src/App.jsx:5-9 | on mount the page shows super lotto with no numbers, no special, not rolling and six covered cards |
| Ui.AllCovered | src/App.jsx:131 | `Array(6).fill(true)` is six covered cards |
| Ui.Reset | src/App.jsx:126-132 | the game-change effect clears numbers and special, stops rolling and covers all six cards |
| Ui.SelectGame | src/App.jsx:126-132 | choosing the current game changes nothing; choosing another game clears the board |
| Ui.SelectGameForgets | src/App.jsx:126-132 | after switching to another game, nothing of the previous board remains |
| Ui.StartGenerate | src/App.jsx:73-79 | a roll starts rolling, and for the scratch game it covers all six cards again |
| Ui.ScratchNumbers | src/App.jsx:96-98 | a scratch draw is at most three numbers of `1..99` followed by at most three of `100..999`, with no repeats |
| Ui.JoinGroups | src/App.jsx:98 | joining the two scratch groups, which come from disjoint ranges, introduces no repeat |
| Ui.SpecialPick | src/App.jsx:90 | the super-lotto special lies in `1..8` |
| Ui.RollStep | src/App.jsx:88-100 | each tick shows, for super lotto, at most six ascending distinct balls of 1..38 and a special in 1..8; for lotto 649, balls of 1..49 and no special; for scratch, a two-group draw and no special |
| Ui.FinalizeStep | src/App.jsx:112-124 | the final draw obeys the same per-game ball rules; only super lotto draws a new special, and the other games keep the special the last tick left |
| Ui.Tick | src/App.jsx:102-106 | past 800 ms the roll stops and the final draw is shown; before that the roll goes on; either way super lotto shows ascending distinct balls of 1..38 and a special in 1..8, lotto 649 balls of 1..49 and no special, scratch a two-group draw and no special |
| Ui.ScratchClick | src/App.jsx:134-139 | a click while rolling changes nothing; otherwise it uncovers exactly the clicked card and leaves the rest of the state alone |
| Ui.ScratchClicksCommute | src/App.jsx:134-139 | uncovering a card twice is uncovering it once, and two clicks commute |

## Left out

- CORS headers and the `OPTIONS` preflight (lines 6-18 of the handler) are not modelled: they do not affect the analysis.
- Console logging is not modelled, and neither is the JSON encoding of the response body.
- HTTP: the fetch is an input, either the table rows or the message of the error `axios.get` threw. URLs and timeouts are not modelled.
- HTML parsing is not modelled. A row arrives as its trimmed-to-be text and its `<span>` descendants in document order. The `table.td_hm tr` selection is taken as given.
- Fetch failure: the model follows the code. A failed fetch is an exception that the handler's `catch` turns into status 500 with the error's message. It does not fall back to synthetic draws, although the fallback is described as keeping the demo alive when the site blocks scraping. Other exceptions, which cheerio could raise, are not modelled.
- Text.ParseInt: models `parseInt(s, 10)` on unbounded integers. It leaves out JavaScript's loss of precision above 2^53, and `-0`.
- Text.IsBlank uses the whitespace set of `String.prototype.trim`. Unicode normalisation and encodings are not modelled.
- Sampling.Fill: the distribution of `Math.random()` is not modelled. Once the oracle is drained, each missing value is the first unused pool value, and these completions stand for runs in which the loop draws new values. Termination of the source loop with probability 1 is not stated.
- Common.Scale: the product `r * k` is taken in exact real arithmetic, not rounded to a double before `Math.floor`; for some `r` the two differ by one. Every index below `k` is still `Scale` of some oracle value (`Common.ScaleReaches`), so the set of reachable draws is the same.
- Common.At: a drained oracle reads as 0.0, which is a value `Math.random()` can return.
- Recommend.AiNumbers: requires at least three distinct hot numbers and a cold number that is not hot. The loops need three distinct hot values and a cold value outside the three hot picks, or they never end; a cold value that is not hot is one whatever the picks, so the requires is slightly stronger than the loops' need in the case where every cold value is hot but one is missed by the picks. The slices of both games always provide it.
- React timing: the 50 ms interval and `Date.now()` become the `elapsed` parameter of `Ui.Tick`. Clearing the interval is not modelled.
- A game change during a roll is not modelled: the running interval's closure keeps the old game.
- Loading screen, Tailwind injection and the mobile-width check are not modelled: they are rendering concerns.
- Ui.ScratchClick: requires the index to be one of the cards, because the page only offers those. An out-of-range index would grow a sparse JavaScript array.
- Ui.Initial: the state after mounting is the reset of super lotto, as the game-change effect runs on mount. The brief first render with `scratchStates = []` is not modelled.
- Ui.GenerateUniqueNumbers: is stated for `min <= max`, which holds for every call the page makes.
- Non-integer and `NaN` ball values are not modelled: the balls come from `parseInt` with `NaN` dropped, so they cannot arise.
- Scrape.Collect: its own contract states only the one-number-per-span bound; what it collects is stated by Scrape.CollectSingle and Scrape.CollectAppend, which together determine it on every span list.
- Scrape.ScrapeRows: its own contract states only the one-draw-per-row bound; what it appends is stated by Scrape.ScrapeRowsSingle and Scrape.ScrapeRowsAppend, which together determine it on every row list.
- Scrape.DateText: its own contract states only the empty case; the text is stated by Scrape.DateTextSingle and Scrape.DateTextAppend.
- Fallback.SyntheticLabel: its own contract states only the length; the label's text is stated by Fallback.SyntheticLabelNumber.

=== FILE: common.dfy ===
/** Shared vocabulary: optional values, the random oracle, integer ranges and
    the sequence predicates (distinct, in range, ascending) used throughout. */
module Common {

  /** JavaScript's `null`-or-value. */
  datatype Option<+T> = None | Some(value: T)

  /** One value returned by `Math.random()`: a number in [0, 1). */
  type Random = r: real | 0.0 <= r < 1.0

  /** A result computed from random values, and the oracle left unread. */
  datatype Drawn<+T> = Drawn(value: T, rest: seq<Random>)

  /** `Math.floor(r * k)`: an index into a pool of `k` candidates. */
  function Scale(r: Random, k: nat): (p: nat)
    requires k > 0
    ensures p < k
    ensures p as real <= r * k as real < p as real + 1.0
  {
    var x := r * k as real;
    assert 0.0 <= x;
    assert x < k as real by {
      assert r * k as real < 1.0 * k as real;
    }
    x.Floor
  }

  /** Every index below `k` is reachable: the oracle value `i / k` scales
      to `i`. */
  lemma ScaleReaches(i: nat, k: nat)
    requires i < k
    ensures var r: Random := i as real / k as real; Scale(r, k) == i
  {
    var r: real := i as real / k as real;
    assert r * k as real == i as real;
  }

  /** The `i`-th oracle value; a drained oracle reads as 0.0, a value
      `Math.random()` can return. */
  function At(oracle: seq<Random>, i: nat): Random {
    if i < |oracle| then oracle[i] else 0.0
  }

  /** The oracle after `k` values have been consumed. */
  function Drop(oracle: seq<Random>, k: nat): (rest: seq<Random>)
    ensures |rest| == if k <= |oracle| then |oracle| - k else 0
    ensures forall i :: 0 <= i < |rest| ==> rest[i] == oracle[k + i]
  {
    if k <= |oracle| then oracle[k..] else []
  }

  /** The integers `lo, lo+1, ..., hi` in ascending order. */
  function Range(lo: int, hi: int): (r: seq<int>)
    ensures |r| == if lo <= hi then hi - lo + 1 else 0
    ensures forall i :: 0 <= i < |r| ==> r[i] == lo + i
    ensures forall x :: x in r <==> lo <= x <= hi
    decreases hi - lo
  {
    if lo > hi then [] else [lo] + Range(lo + 1, hi)
  }

  function Elems<T>(s: seq<T>): set<T> {
    set x | x in s
  }

  predicate Distinct<T(==)>(s: seq<T>) {
    forall i, j :: 0 <= i < j < |s| ==> s[i] != s[j]
  }

  predicate AllIn(s: seq<int>, lo: int, hi: int) {
    forall i :: 0 <= i < |s| ==> lo <= s[i] <= hi
  }

  predicate Ascending(s: seq<int>) {
    forall i, j :: 0 <= i < j < |s| ==> s[i] < s[j]
  }

  predicate NonDecreasing(s: seq<int>) {
    forall i, j :: 0 <= i < j < |s| ==> s[i] <= s[j]
  }

  /** `s.slice(-k)` for `0 < k`: the last `k` elements, or all of `s`. */
  function LastK<T>(s: seq<T>, k: nat): (r: seq<T>)
    requires k > 0
    ensures |r| == if |s| >= k then k else |s|
    ensures forall i :: 0 <= i < |r| ==> r[i] == s[|s| - |r| + i]
  {
    if |s| >= k then s[|s| - k..] else s
  }

  /** `Array.prototype.reverse`. */
  function Reverse<T>(s: seq<T>): (r: seq<T>)
    ensures |r| == |s|
    ensures forall i :: 0 <= i < |s| ==> r[i] == s[|s| - 1 - i]
  {
    if s == [] then [] else Reverse(s[1..]) + [s[0]]
  }

  /** Keeps the first occurrence of every value, in encounter order: the
      contents of a JavaScript `Set` filled from `xs`, as `Array.from` lists them. */
  function Dedup<T(==)>(xs: seq<T>): (r: seq<T>)
    ensures Distinct(r)
    ensures Elems(r) == Elems(xs)
    ensures |r| <= |xs|
  {
    DedupOnto([], xs)
  }

  /** Adding one more value to a JavaScript `Set`: the first-occurrence
      list of `xs + [x]`. */
  lemma {:induction false} DedupOntoSnoc<T>(acc: seq<T>, xs: seq<T>, x: T)
    requires Distinct(acc)
    ensures var d := DedupOnto(acc, xs);
      DedupOnto(acc, xs + [x]) == if x in d then d else d + [x]
    decreases |xs|
  {
    if xs == [] {
      assert [x][1..] == [];
    } else {
      var acc' := if xs[0] in acc then acc else acc + [xs[0]];
      assert (xs + [x])[0] == xs[0] && (xs + [x])[1..] == xs[1..] + [x];
      DedupOntoSnoc(acc', xs[1..], x);
    }
  }

  /** Removing repeats keeps every value inside a range that held them all. */
  lemma DedupInRange(xs: seq<int>, lo: int, hi: int)
    requires AllIn(xs, lo, hi)
    ensures AllIn(Dedup(xs), lo, hi)
  {
    var r := Dedup(xs);
    forall i | 0 <= i < |r| ensures lo <= r[i] <= hi {
      assert r[i] in Elems(xs);
    }
  }

  /** `acc` is the Set so far; each element of `xs` is added unless present. */
  function DedupOnto<T(==)>(acc: seq<T>, xs: seq<T>): (r: seq<T>)
    requires Distinct(acc)
    ensures Distinct(r)
    ensures Elems(r) == Elems(acc) + Elems(xs)
    ensures |acc| <= |r| <= |acc| + |xs|
    ensures r[..|acc|] == acc
    decreases |xs|
  {
    if xs == [] then acc
    else
      var acc' := if xs[0] in acc then acc else acc + [xs[0]];
      assert Elems(xs) == {xs[0]} + Elems(xs[1..]);
      var r := DedupOnto(acc', xs[1..]);
      assert r[..|acc|] == r[..|acc'|][..|acc|];
      r
  }

  /** A distinct sequence has as many elements as its set. */
  lemma {:induction false} DistinctCard<T>(s: seq<T>)
    requires Distinct(s)
    ensures |Elems(s)| == |s|
  {
    if s != [] {
      DistinctCard(s[1..]);
      assert Elems(s) == Elems(s[1..]) + {s[0]};
      assert s[0] !in Elems(s[1..]);
    }
  }

  /** Removing a set of size `|b|` leaves at least `|a| - |b|` elements. */
  lemma {:induction false} DiffCard<T>(a: set<T>, b: set<T>)
    ensures |a - b| >= |a| - |b|
  {
    if b != {} {
      var x :| x in b;
      DiffCard(a, b - {x});
      if x in a - (b - {x}) {
        assert a - b == (a - (b - {x})) - {x};
      } else {
        assert a - b == a - (b - {x});
      }
    }
  }

  /** A subset is no larger than its superset. */
  lemma SubsetCard<T>(a: set<T>, b: set<T>)
    requires a <= b
    ensures |a| <= |b|
  {
    assert b == a + (b - a);
  }
}

=== FILE: fallback.dfy ===
/** The synthetic history used when no table row was accepted: 50 made-up
    draws of six distinct numbers in `1..maxNum` and a special in `1..8`. */
module Fallback {
  import opened Common
  import opened Text
  import opened Lottery
  import opened Sampling

  /** The number of synthetic draws, `for (let i = 0; i < 50; i++)`. */
  const SyntheticDraws: nat := 50

  /** The text around the draw number in a synthetic label. */
  const LabelPrefix: string := "模擬第 "
  const LabelSuffix: string := " 期"

  /** The label `模擬第 ${i} 期` of synthetic draw `i`. */
  function SyntheticLabel(i: nat): (l: string)
    ensures |l| > |LabelPrefix| + |LabelSuffix|
  {
    LabelPrefix + NatToString(i) + LabelSuffix
  }

  /** The text between the prefix and the suffix of a label is the decimal
      text of the draw number, so `parseInt` reads the number back. */
  lemma SyntheticLabelNumber(i: nat)
    ensures var l := SyntheticLabel(i);
      && l[..|LabelPrefix|] == LabelPrefix
      && l[|l| - |LabelSuffix|..] == LabelSuffix
      && ParseInt(l[|LabelPrefix|..|l| - |LabelSuffix|]) == Some(i)
  {
    var d := NatToString(i);
    var l := SyntheticLabel(i);
    assert l == LabelPrefix + d + LabelSuffix;
    assert l[..|LabelPrefix|] == LabelPrefix;
    assert l[|l| - |LabelSuffix|..] == LabelSuffix;
    assert l[|LabelPrefix|..|l| - |LabelSuffix|] == d;
    ParseIntOfNatString(i);
  }

  /** No two synthetic draws share a label. */
  lemma SyntheticLabelsDistinct(i: nat, j: nat)
    requires i != j
    ensures SyntheticLabel(i) != SyntheticLabel(j)
  {
    SyntheticLabelNumber(i);
    SyntheticLabelNumber(j);
  }

  /** The shape every synthetic draw has. */
  predicate ValidSynthetic(d: Draw, maxNum: nat) {
    && |d.numbers| == BallCount
    && Distinct(d.numbers)
    && AllIn(d.numbers, 1, maxNum)
    && d.special.Some? && 1 <= d.special.value <= SpecialMax
  }

  /** One synthetic draw: the six-number set loop, then the special number. */
  function SyntheticDraw(i: nat, maxNum: nat, oracle: seq<Random>): (r: Drawn<Draw>)
    requires maxNum >= BallCount
    ensures ValidSynthetic(r.value, maxNum)
    ensures r.value.drawDate == SyntheticLabel(i)
  {
    RangeRoom([], BallCount, 1, maxNum);
    var p := Fill([], BallCount, Range(1, maxNum), oracle);
    var nums, o1 := p.value, p.rest;
    FillInRange([], BallCount, Range(1, maxNum), oracle, 1, maxNum);
    var special := Scale(At(o1, 0), SpecialMax) + 1;
    Drawn(Draw(SyntheticLabel(i), nums, Some(special)), Drop(o1, 1))
  }

  /** Synthetic draws `i .. 49`, each consuming the oracle after the last. */
  function SynthesizeFrom(i: nat, maxNum: nat, oracle: seq<Random>): (r: Drawn<seq<Draw>>)
    requires i <= SyntheticDraws && maxNum >= BallCount
    ensures |r.value| == SyntheticDraws - i
    ensures forall k :: 0 <= k < |r.value| ==> ValidSynthetic(r.value[k], maxNum)
    ensures forall k :: 0 <= k < |r.value| ==> r.value[k].drawDate == SyntheticLabel(i + k)
    decreases SyntheticDraws - i
  {
    if i == SyntheticDraws then Drawn([], oracle)
    else
      var first := SyntheticDraw(i, maxNum, oracle);
      var rest := SynthesizeFrom(i + 1, maxNum, first.rest);
      ConsDraws(i, maxNum, first.value, rest.value);
      Drawn([first.value] + rest.value, rest.rest)
  }

  /** Draw `i` in front of valid draws labelled from `i + 1` on. */
  lemma ConsDraws(i: nat, maxNum: nat, d: Draw, rest: seq<Draw>)
    requires ValidSynthetic(d, maxNum) && d.drawDate == SyntheticLabel(i)
    requires forall k :: 0 <= k < |rest| ==> ValidSynthetic(rest[k], maxNum)
    requires forall k :: 0 <= k < |rest| ==> rest[k].drawDate == SyntheticLabel(i + 1 + k)
    ensures forall k :: 0 <= k < |rest| + 1 ==> ValidSynthetic(([d] + rest)[k], maxNum)
    ensures forall k :: 0 <= k < |rest| + 1 ==> ([d] + rest)[k].drawDate == SyntheticLabel(i + k)
  {
    var r := [d] + rest;
    assert forall k :: 1 <= k < |r| ==> r[k] == rest[k - 1];
  }

  /** The history the analysis runs on: the scraped rows when there are any,
      otherwise the synthetic draws. */
  function History(g: Game, scraped: seq<Draw>, oracle: seq<Random>): (r: Drawn<seq<Draw>>)
    ensures |r.value| > 0
    ensures scraped != [] ==> r == Drawn(scraped, oracle)
    ensures scraped == [] ==> |r.value| == SyntheticDraws
    ensures scraped == [] ==> forall k :: 0 <= k < |r.value| ==> ValidSynthetic(r.value[k], MaxNum(g))
    ensures scraped == [] ==> forall k :: 0 <= k < |r.value| ==> r.value[k].drawDate == SyntheticLabel(k)
  {
    if scraped == [] then SynthesizeFrom(0, MaxNum(g), oracle) else Drawn(scraped, oracle)
  }
}

=== FILE: frequency.dfy ===
/** The frequency analysis: the count table over `1..maxNum`, the ranking by
    descending count, and the hot and cold slices. */
module Frequency {
  import opened Common
  import opened Lottery

  /** `frequency`: ball number to occurrence count. */
  type Table = map<int, nat>

  /** How often `n` occurs among the main numbers of `draws`; specials are
      not looked at. */
  function Occurrences(draws: seq<Draw>, n: int): nat {
    if draws == [] then 0 else multiset(draws[0].numbers)[n] + Occurrences(draws[1..], n)
  }

  /** `for (let i = 1; i <= maxNum; i++) frequency[i] = 0`. */
  function EmptyTable(maxNum: nat): (t: Table)
    ensures forall n :: n in t <==> 1 <= n <= maxNum
    ensures forall n :: n in t ==> t[n] == 0
  {
    map n | n in Range(1, maxNum) :: 0
  }

  /** `nums.forEach(num => { if (frequency[num] !== undefined) frequency[num]++ })`. */
  function CountNumbers(t: Table, nums: seq<int>): (r: Table)
    ensures r.Keys == t.Keys
    ensures forall n :: n in t ==> r[n] == t[n] + multiset(nums)[n]
    decreases |nums|
  {
    if nums == [] then t
    else
      var t' := if nums[0] in t then t[nums[0] := t[nums[0]] + 1] else t;
      assert nums == [nums[0]] + nums[1..];
      CountNumbers(t', nums[1..])
  }

  /** `historyData.forEach(draw => ...)`. */
  function Tally(t: Table, draws: seq<Draw>): (r: Table)
    ensures r.Keys == t.Keys
    ensures forall n :: n in t ==> r[n] == t[n] + Occurrences(draws, n)
    decreases |draws|
  {
    if draws == [] then t else Tally(CountNumbers(t, draws[0].numbers), draws[1..])
  }

  /** The frequency table: one entry for each of `1..maxNum`, holding that
      number's occurrence count; values outside the range are not counted. */
  function FrequencyTable(maxNum: nat, draws: seq<Draw>): (f: Table)
    ensures forall n :: n in f <==> 1 <= n <= maxNum
    ensures forall n :: n in f ==> f[n] == Occurrences(draws, n)
  {
    Tally(EmptyTable(maxNum), draws)
  }

  /** Only the main numbers matter: histories that agree on every draw's
      numbers have the same table, whatever their specials and labels. */
  lemma FrequencyIgnoresSpecials(maxNum: nat, a: seq<Draw>, b: seq<Draw>)
    requires |a| == |b|
    requires forall i :: 0 <= i < |a| ==> a[i].numbers == b[i].numbers
    ensures FrequencyTable(maxNum, a) == FrequencyTable(maxNum, b)
  {
    forall n ensures Occurrences(a, n) == Occurrences(b, n) {
      OccurrencesSameNumbers(a, b, n);
    }
  }

  lemma {:induction false} OccurrencesSameNumbers(a: seq<Draw>, b: seq<Draw>, n: int)
    requires |a| == |b|
    requires forall i :: 0 <= i < |a| ==> a[i].numbers == b[i].numbers
    ensures Occurrences(a, n) == Occurrences(b, n)
  {
    if a != [] {
      OccurrencesSameNumbers(a[1..], b[1..], n);
    }
  }

  /** A number drawn in every one of a history's draws of distinct numbers
      has the largest count any number can have there. */
  lemma {:induction false} OccurrencesBound(draws: seq<Draw>, n: int, m: int)
    requires forall i :: 0 <= i < |draws| ==> Distinct(draws[i].numbers)
    requires forall i :: 0 <= i < |draws| ==> n in draws[i].numbers
    ensures Occurrences(draws, m) <= |draws| == Occurrences(draws, n)
  {
    if draws != [] {
      OccurrencesBound(draws[1..], n, m);
      var s := draws[0].numbers;
      assert multiset(s)[m] <= 1 && multiset(s)[n] == 1 by {
        DistinctMultiplicity(s, m);
        DistinctMultiplicity(s, n);
      }
    }
  }

  lemma {:induction false} DistinctMultiplicity(s: seq<int>, x: int)
    requires Distinct(s)
    ensures multiset(s)[x] == if x in s then 1 else 0
  {
    if s != [] {
      assert s == [s[0]] + s[1..];
      DistinctMultiplicity(s[1..], x);
    }
  }

  /** Ranking order: higher count first, and the smaller number first among
      equal counts. */
  predicate Precedes(f: Table, a: int, b: int)
    requires a in f && b in f
  {
    f[a] > f[b] || (f[a] == f[b] && a < b)
  }

  predicate Keyed(f: Table, s: seq<int>) {
    forall i :: 0 <= i < |s| ==> s[i] in f
  }

  /** Counts never increase along `s`. */
  predicate CountsNonIncreasing(f: Table, s: seq<int>)
    requires Keyed(f, s)
  {
    forall i, j :: 0 <= i < j < |s| ==> f[s[i]] >= f[s[j]]
  }

  /** `s` lists its elements in ranking order. */
  predicate Ranked(f: Table, s: seq<int>)
    requires Keyed(f, s)
  {
    forall i, j :: 0 <= i < j < |s| ==> Precedes(f, s[i], s[j])
  }

  /** Stable insertion of `x` into `s`: `x` goes before the first element
      whose count is not larger. */
  function InsertByCount(f: Table, x: int, s: seq<int>): (r: seq<int>)
    requires x in f && Keyed(f, s) && CountsNonIncreasing(f, s)
    ensures multiset(r) == multiset(s) + multiset{x}
    ensures Keyed(f, r) && CountsNonIncreasing(f, r)
    ensures r[0] == if s == [] || f[x] >= f[s[0]] then x else s[0]
  {
    if s == [] then [x]
    else if f[x] >= f[s[0]] then
      ConsNonIncreasing(f, x, s);
      [x] + s
    else
      TailNonIncreasing(f, s);
      var rec := InsertByCount(f, x, s[1..]);
      ConsNonIncreasing(f, s[0], rec);
      assert multiset(s) == multiset{s[0]} + multiset(s[1..]) by {
        assert s == [s[0]] + s[1..];
      }
      [s[0]] + rec
  }

  lemma TailNonIncreasing(f: Table, s: seq<int>)
    requires s != [] && Keyed(f, s) && CountsNonIncreasing(f, s)
    ensures Keyed(f, s[1..]) && CountsNonIncreasing(f, s[1..])
  {
    assert forall i :: 0 <= i < |s| - 1 ==> s[1..][i] == s[i + 1];
  }

  /** A head whose count is at least the next one's keeps the counts
      non-increasing. */
  lemma ConsNonIncreasing(f: Table, a: int, s: seq<int>)
    requires a in f && Keyed(f, s) && CountsNonIncreasing(f, s)
    requires s != [] ==> f[a] >= f[s[0]]
    ensures Keyed(f, [a] + s) && CountsNonIncreasing(f, [a] + s)
  {
    var r := [a] + s;
    assert forall i :: 1 <= i < |r| ==> r[i] == s[i - 1];
    assert forall j :: 0 <= j < |s| ==> f[a] >= f[s[j]];
  }

  /** `.sort(([, a], [, b]) => b - a)`: a stable sort by descending count. */
  function SortByCount(f: Table, s: seq<int>): (r: seq<int>)
    requires Keyed(f, s)
    ensures multiset(r) == multiset(s)
    ensures Keyed(f, r) && CountsNonIncreasing(f, r)
  {
    if s == [] then []
    else
      assert s == [s[0]] + s[1..];
      InsertByCount(f, s[0], SortByCount(f, s[1..]))
  }

  lemma {:induction false} InsertRanked(f: Table, x: int, s: seq<int>)
    requires x in f && Keyed(f, s) && Ranked(f, s)
    requires forall i :: 0 <= i < |s| ==> x < s[i]
    ensures Ranked(f, InsertByCount(f, x, s))
  {
    if s != [] && f[x] < f[s[0]] {
      var t := s[1..];
      InsertRanked(f, x, t);
      var u := InsertByCount(f, x, t);
      forall j | 0 <= j < |u| ensures Precedes(f, s[0], u[j]) {
        assert u[j] in multiset(t) + multiset{x};
        if u[j] != x {
          FirstPrecedesRest(f, s, u[j]);
        }
      }
      ConsRanked(f, s[0], u);
    }
  }

  /** A head that precedes every element of a ranked list extends it. */
  lemma ConsRanked(f: Table, a: int, u: seq<int>)
    requires a in f && Keyed(f, u) && Ranked(f, u)
    requires forall j :: 0 <= j < |u| ==> Precedes(f, a, u[j])
    ensures Keyed(f, [a] + u) && Ranked(f, [a] + u)
  {
    var r := [a] + u;
    assert forall i :: 1 <= i < |r| ==> r[i] == u[i - 1];
  }

  /** The head of a ranked list precedes every value of its tail. */
  lemma FirstPrecedesRest(f: Table, s: seq<int>, y: int)
    requires s != [] && Keyed(f, s) && Ranked(f, s) && y in multiset(s[1..])
    ensures y in f && Precedes(f, s[0], y)
  {
    var k :| 0 <= k < |s| - 1 && s[1..][k] == y;
    assert s[k + 1] == y;
  }

  /** Object keys are enumerated in ascending order and the sort is stable,
      so sorting the ascending domain leaves equal counts in ascending
      number order. */
  lemma {:induction false} SortAscendingInputRanked(f: Table, s: seq<int>)
    requires Keyed(f, s) && Ascending(s)
    ensures Ranked(f, SortByCount(f, s))
  {
    if s != [] {
      var t := SortByCount(f, s[1..]);
      SortAscendingInputRanked(f, s[1..]);
      HeadBelowRest(s, t);
      InsertRanked(f, s[0], t);
    }
  }

  /** The head of an ascending list is below every value of its tail,
      however the tail is reordered. */
  lemma HeadBelowRest(s: seq<int>, t: seq<int>)
    requires s != [] && Ascending(s) && multiset(t) == multiset(s[1..])
    ensures forall i :: 0 <= i < |t| ==> s[0] < t[i]
  {
    forall i | 0 <= i < |t| ensures s[0] < t[i] {
      assert t[i] in multiset(s[1..]);
      var k :| 0 <= k < |s[1..]| && s[1..][k] == t[i];
      assert s[k + 1] == t[i];
    }
  }

  /** A ranked sequence is determined by its elements: the ranking order is
      total, so there is exactly one way to list a set of numbers ranked. */
  lemma {:induction false} RankedUnique(f: Table, a: seq<int>, b: seq<int>)
    requires Keyed(f, a) && Keyed(f, b) && Ranked(f, a) && Ranked(f, b)
    requires multiset(a) == multiset(b)
    ensures a == b
  {
    if a != [] {
      assert |b| == |a| by { assert |multiset(a)| == |multiset(b)|; }
      HeadsAgree(f, a, b);
      TailRanked(f, a);
      TailRanked(f, b);
      TailsPermute(a, b);
      RankedUnique(f, a[1..], b[1..]);
      assert a == [a[0]] + a[1..] && b == [b[0]] + b[1..];
    }
  }

  /** Two permutations with the same head have permuted tails. */
  lemma TailsPermute(a: seq<int>, b: seq<int>)
    requires a != [] && b != [] && a[0] == b[0] && multiset(a) == multiset(b)
    ensures multiset(a[1..]) == multiset(b[1..])
  {
    assert a == [a[0]] + a[1..] && b == [b[0]] + b[1..];
    assert multiset(a) == multiset{a[0]} + multiset(a[1..]);
    assert multiset(b) == multiset{b[0]} + multiset(b[1..]);
    assert multiset(a[1..]) == multiset(a) - multiset{a[0]};
    assert multiset(b[1..]) == multiset(b) - multiset{b[0]};
  }

  /** The tail of a ranked list is ranked. */
  lemma TailRanked(f: Table, s: seq<int>)
    requires s != [] && Keyed(f, s) && Ranked(f, s)
    ensures Keyed(f, s[1..]) && Ranked(f, s[1..])
  {
    assert forall i :: 0 <= i < |s| - 1 ==> s[1..][i] == s[i + 1];
  }

  /** Two ranked lists of the same numbers start with the same number: each
      head precedes every other element of its list, and the ranking order is
      antisymmetric. */
  lemma HeadsAgree(f: Table, a: seq<int>, b: seq<int>)
    requires Keyed(f, a) && Keyed(f, b) && Ranked(f, a) && Ranked(f, b)
    requires a != [] && multiset(a) == multiset(b)
    ensures b != [] && a[0] == b[0]
  {
    assert a[0] in multiset(b);
    assert b[0] in multiset(a);
    HeadPrecedes(f, a, b[0]);
    HeadPrecedes(f, b, a[0]);
  }

  /** The head of a ranked list precedes each of its other elements. */
  lemma HeadPrecedes(f: Table, s: seq<int>, x: int)
    requires Keyed(f, s) && Ranked(f, s) && x in multiset(s)
    ensures x in f && (x == s[0] || Precedes(f, s[0], x))
  {
    var k :| 0 <= k < |s| && s[k] == x;
    assert k == 0 || Precedes(f, s[0], s[k]);
  }

  /** `sortedNumbers`: the domain `1..maxNum` in ranking order. */
  function Ranking(f: Table, maxNum: nat): (r: seq<int>)
    requires forall n :: n in f <==> 1 <= n <= maxNum
    ensures |r| == maxNum
    ensures multiset(r) == multiset(Range(1, maxNum))
    ensures Keyed(f, r) && Ranked(f, r)
  {
    var dom := Range(1, maxNum);
    SortAscendingInputRanked(f, dom);
    var r := SortByCount(f, dom);
    assert |r| == |multiset(r)| == |multiset(dom)| == |dom|;
    r
  }

  /** The ranking is the one permutation of `1..maxNum` whose counts never
      increase and whose equal counts appear in ascending number order. */
  lemma RankingCharacterised(f: Table, maxNum: nat, s: seq<int>)
    requires forall n :: n in f <==> 1 <= n <= maxNum
    requires multiset(s) == multiset(Range(1, maxNum))
    requires Keyed(f, s)
    requires CountsNonIncreasing(f, s)
    requires forall i, j :: 0 <= i < j < |s| && f[s[i]] == f[s[j]] ==> s[i] < s[j]
    ensures s == Ranking(f, maxNum)
  {
    assert Ranked(f, s);
    RankedUnique(f, s, Ranking(f, maxNum));
  }

  /** Slices taken from each end of the ranking. */
  const SliceSize: nat := 10

  /** The two slices of the ranking. */
  datatype Slices = Slices(hot: seq<int>, cold: seq<int>)

  /** `hotNumbers = sortedNumbers.slice(0, 10)` and
      `coldNumbers = sortedNumbers.slice(-10).reverse()`, for a game with at
      least 20 numbers: the ten numbers that rank first, in ranking order,
      and the ten that rank last, in reverse ranking order. */
  function HotCold(f: Table, maxNum: nat): (hc: Slices)
    requires maxNum >= 2 * SliceSize
    requires forall n :: n in f <==> 1 <= n <= maxNum
    ensures hc.hot == Ranking(f, maxNum)[..SliceSize]
    ensures hc.cold == Reverse(LastK(Ranking(f, maxNum), SliceSize))
    ensures |hc.hot| == SliceSize && |hc.cold| == SliceSize
    ensures Distinct(hc.hot) && Distinct(hc.cold)
    ensures AllIn(hc.hot, 1, maxNum) && AllIn(hc.cold, 1, maxNum)
    ensures Elems(hc.hot) !! Elems(hc.cold)
    ensures Keyed(f, hc.hot) && Keyed(f, hc.cold)
    ensures SlicedByRank(f, maxNum, hc.hot, hc.cold)
  {
    var r := Ranking(f, maxNum);
    var hot := r[..SliceSize];
    var cold := Reverse(LastK(r, SliceSize));
    EndsOfRanking(f, maxNum, r, hot, cold);
    Slices(hot, cold)
  }

  /** Hot is the ten numbers of `1..maxNum` that rank first, in ranking
      order; cold is the ten that rank last, in reverse ranking order; every
      hot count is at least every cold count, and the first hot and first
      cold numbers hold the largest and smallest count of all. */
  predicate SlicedByRank(f: Table, maxNum: nat, hot: seq<int>, cold: seq<int>)
    requires forall n :: n in f <==> 1 <= n <= maxNum
    requires |hot| == SliceSize && |cold| == SliceSize && Keyed(f, hot) && Keyed(f, cold)
  {
    && (forall n :: 1 <= n <= maxNum && n !in hot ==> Precedes(f, hot[SliceSize - 1], n))
    && (forall n :: 1 <= n <= maxNum && n !in cold ==> Precedes(f, n, cold[SliceSize - 1]))
    && (forall i :: 0 <= i < SliceSize - 1 ==> Precedes(f, hot[i], hot[i + 1]))
    && (forall i :: 0 <= i < SliceSize - 1 ==> Precedes(f, cold[i + 1], cold[i]))
    && (forall i, j :: 0 <= i < SliceSize && 0 <= j < SliceSize ==> f[hot[i]] >= f[cold[j]])
    && (forall n :: 1 <= n <= maxNum ==> f[hot[0]] >= f[n] >= f[cold[0]])
  }

  /** The slice facts of the ranking's two ends. */
  lemma EndsOfRanking(f: Table, maxNum: nat, r: seq<int>, hot: seq<int>, cold: seq<int>)
    requires maxNum >= 2 * SliceSize
    requires forall n :: n in f <==> 1 <= n <= maxNum
    requires r == Ranking(f, maxNum) && hot == r[..SliceSize] && cold == Reverse(LastK(r, SliceSize))
    ensures |hot| == SliceSize && |cold| == SliceSize
    ensures Distinct(hot) && Distinct(cold)
    ensures AllIn(hot, 1, maxNum) && AllIn(cold, 1, maxNum)
    ensures Elems(hot) !! Elems(cold)
    ensures Keyed(f, hot) && Keyed(f, cold)
    ensures SlicedByRank(f, maxNum, hot, cold)
  {
    RankingFacts(f, maxNum, r);
    BackReversed(r, cold);
    assert hot[0] == r[0] && cold[0] == r[maxNum - 1];
    EndsDisjoint(r, hot, cold);
    EndsInRange(r, hot, cold, maxNum);
    EndsOrdered(f, r, hot, cold);
    EndsAreExtremes(f, maxNum, r, hot, cold);
  }

  /** `slice(-10).reverse()` reads the last ten places backwards. */
  lemma BackReversed(r: seq<int>, cold: seq<int>)
    requires |r| >= SliceSize && cold == Reverse(LastK(r, SliceSize))
    ensures |cold| == SliceSize
    ensures forall j :: 0 <= j < SliceSize ==> cold[j] == r[|r| - 1 - j]
  {
    var back := LastK(r, SliceSize);
    assert forall j :: 0 <= j < SliceSize ==> cold[j] == back[SliceSize - 1 - j];
  }

  /** Both ends of a duplicate-free list of `1..maxNum` are duplicate-free
      lists of `1..maxNum`. */
  lemma EndsInRange(r: seq<int>, hot: seq<int>, cold: seq<int>, maxNum: nat)
    requires Distinct(r) && AllIn(r, 1, maxNum) && |r| >= 2 * SliceSize
    requires hot == r[..SliceSize] && |cold| == SliceSize
    requires forall j :: 0 <= j < SliceSize ==> cold[j] == r[|r| - 1 - j]
    ensures Distinct(hot) && Distinct(cold)
    ensures AllIn(hot, 1, maxNum) && AllIn(cold, 1, maxNum)
  {
  }

  /** The ends of a ranked list: the front in ranking order, the back read
      backwards in reverse ranking order, and every front count at least
      every back count. */
  lemma EndsOrdered(f: Table, r: seq<int>, hot: seq<int>, cold: seq<int>)
    requires Keyed(f, r) && Ranked(f, r) && |r| >= 2 * SliceSize
    requires hot == r[..SliceSize] && |cold| == SliceSize
    requires forall j :: 0 <= j < SliceSize ==> cold[j] == r[|r| - 1 - j]
    ensures Keyed(f, hot) && Keyed(f, cold)
    ensures forall i, j :: 0 <= i < SliceSize && 0 <= j < SliceSize ==> f[hot[i]] >= f[cold[j]]
    ensures forall i :: 0 <= i < SliceSize - 1 ==> Precedes(f, hot[i], hot[i + 1])
    ensures forall i :: 0 <= i < SliceSize - 1 ==> Precedes(f, cold[i + 1], cold[i])
  {
    forall i, j | 0 <= i < SliceSize && 0 <= j < SliceSize ensures f[hot[i]] >= f[cold[j]] {
      assert Precedes(f, r[i], r[|r| - 1 - j]);
    }
    forall i | 0 <= i < SliceSize - 1 ensures Precedes(f, cold[i + 1], cold[i]) {
      assert Precedes(f, r[|r| - 2 - i], r[|r| - 1 - i]);
    }
  }

  /** Every number outside the front ten ranks after the tenth of them, and
      every number outside the back ten ranks before the last-but-nine. */
  lemma EndsAreExtremes(f: Table, maxNum: nat, r: seq<int>, hot: seq<int>, cold: seq<int>)
    requires forall n :: n in f <==> 1 <= n <= maxNum
    requires |r| == maxNum >= 2 * SliceSize
    requires multiset(r) == multiset(Range(1, maxNum))
    requires Keyed(f, r) && Ranked(f, r)
    requires hot == r[..SliceSize] && |cold| == SliceSize
    requires forall j :: 0 <= j < SliceSize ==> cold[j] == r[|r| - 1 - j]
    ensures forall n :: 1 <= n <= maxNum && n !in hot ==> Precedes(f, hot[SliceSize - 1], n)
    ensures forall n :: 1 <= n <= maxNum && n !in cold ==> Precedes(f, n, cold[SliceSize - 1])
  {
    forall n | 1 <= n <= maxNum && n !in hot ensures Precedes(f, hot[SliceSize - 1], n) {
      var k := IndexIn(r, n, maxNum);
      OutsideFront(r, hot, k);
      assert Precedes(f, r[SliceSize - 1], r[k]);
    }
    forall n | 1 <= n <= maxNum && n !in cold ensures Precedes(f, n, cold[SliceSize - 1]) {
      var k := IndexIn(r, n, maxNum);
      OutsideBack(r, cold, k);
      assert Precedes(f, r[k], r[|r| - SliceSize]);
    }
  }

  /** A place of `n` in a permutation of `1..maxNum`. */
  ghost function IndexIn(r: seq<int>, n: int, maxNum: nat): (k: nat)
    requires multiset(r) == multiset(Range(1, maxNum)) && 1 <= n <= maxNum
    ensures k < |r| && r[k] == n
  {
    assert n in Range(1, maxNum);
    assert n in multiset(r);
    var k :| 0 <= k < |r| && r[k] == n;
    k
  }

  /** A value missing from the front ten sits behind them. */
  lemma OutsideFront(r: seq<int>, hot: seq<int>, k: nat)
    requires |r| >= SliceSize && hot == r[..SliceSize] && k < |r| && r[k] !in hot
    ensures k >= SliceSize
  {
    assert forall i :: 0 <= i < SliceSize ==> r[i] == hot[i];
  }

  /** A value missing from the back ten sits before them. */
  lemma OutsideBack(r: seq<int>, cold: seq<int>, k: nat)
    requires |r| >= SliceSize && |cold| == SliceSize && k < |r| && r[k] !in cold
    requires forall j :: 0 <= j < SliceSize ==> cold[j] == r[|r| - 1 - j]
    ensures k < |r| - SliceSize
  {
    assert forall i :: |r| - SliceSize <= i < |r| ==> r[i] == cold[|r| - 1 - i];
  }

  /** `a` ranks before `b` when only the history's occurrence counts are
      looked at: more occurrences, or as many and a smaller number. */
  predicate OccursBefore(history: seq<Draw>, a: int, b: int) {
    var ca := Occurrences(history, a);
    var cb := Occurrences(history, b);
    ca > cb || (ca == cb && a < b)
  }

  /** The hot and cold slices of a history, stated on its occurrence counts:
      hot is the ten numbers of `1..maxNum` that rank first, in ranking
      order; cold is the ten that rank last, in reverse ranking order. */
  predicate SlicedByCount(history: seq<Draw>, maxNum: nat, hot: seq<int>, cold: seq<int>)
    requires |hot| == SliceSize && |cold| == SliceSize
  {
    && (forall n :: 1 <= n <= maxNum && n !in hot ==> OccursBefore(history, hot[SliceSize - 1], n))
    && (forall n :: 1 <= n <= maxNum && n !in cold ==> OccursBefore(history, n, cold[SliceSize - 1]))
    && (forall i :: 0 <= i < SliceSize - 1 ==> OccursBefore(history, hot[i], hot[i + 1]))
    && (forall i :: 0 <= i < SliceSize - 1 ==> OccursBefore(history, cold[i + 1], cold[i]))
    && (forall i, j :: 0 <= i < SliceSize && 0 <= j < SliceSize ==>
          Occurrences(history, hot[i]) >= Occurrences(history, cold[j]))
    && (forall n :: 1 <= n <= maxNum ==>
          Occurrences(history, hot[0]) >= Occurrences(history, n) >= Occurrences(history, cold[0]))
  }

  /** The slices of a history's table, restated on occurrence counts. */
  lemma HotColdCounts(maxNum: nat, history: seq<Draw>)
    requires maxNum >= 2 * SliceSize
    ensures var hc := HotCold(FrequencyTable(maxNum, history), maxNum);
      SlicedByCount(history, maxNum, hc.hot, hc.cold)
  {
    var f := FrequencyTable(maxNum, history);
    var hc := HotCold(f, maxNum);
    RankToCount(f, maxNum, history, hc.hot, hc.cold);
  }

  /** On a table of occurrence counts, ranking order is `OccursBefore`. */
  lemma RankToCount(f: Table, maxNum: nat, history: seq<Draw>, hot: seq<int>, cold: seq<int>)
    requires forall n :: n in f <==> 1 <= n <= maxNum
    requires forall n :: n in f ==> f[n] == Occurrences(history, n)
    requires |hot| == SliceSize && |cold| == SliceSize && Keyed(f, hot) && Keyed(f, cold)
    requires SlicedByRank(f, maxNum, hot, cold)
    ensures SlicedByCount(history, maxNum, hot, cold)
  {
    forall n | 1 <= n <= maxNum && n !in hot ensures OccursBefore(history, hot[SliceSize - 1], n) {
      assert Precedes(f, hot[SliceSize - 1], n);
    }
    forall n | 1 <= n <= maxNum && n !in cold ensures OccursBefore(history, n, cold[SliceSize - 1]) {
      assert Precedes(f, n, cold[SliceSize - 1]);
    }
    forall i | 0 <= i < SliceSize - 1 ensures OccursBefore(history, hot[i], hot[i + 1]) {
      assert Precedes(f, hot[i], hot[i + 1]);
    }
    forall i | 0 <= i < SliceSize - 1 ensures OccursBefore(history, cold[i + 1], cold[i]) {
      assert Precedes(f, cold[i + 1], cold[i]);
    }
    forall i, j | 0 <= i < SliceSize && 0 <= j < SliceSize
      ensures Occurrences(history, hot[i]) >= Occurrences(history, cold[j])
    {
      assert f[hot[i]] >= f[cold[j]];
    }
    forall n | 1 <= n <= maxNum
      ensures Occurrences(history, hot[0]) >= Occurrences(history, n) >= Occurrences(history, cold[0])
    {
      assert f[hot[0]] >= f[n] >= f[cold[0]];
    }
  }

  /** The hot and cold numbers of a history, described by its occurrence
      counts alone. */
  function HistorySlices(maxNum: nat, history: seq<Draw>): (hc: Slices)
    requires maxNum >= 2 * SliceSize
    ensures |hc.hot| == SliceSize && |hc.cold| == SliceSize
    ensures Distinct(hc.hot) && Distinct(hc.cold)
    ensures AllIn(hc.hot, 1, maxNum) && AllIn(hc.cold, 1, maxNum)
    ensures Elems(hc.hot) !! Elems(hc.cold)
    ensures SlicedByCount(history, maxNum, hc.hot, hc.cold)
  {
    HotColdCounts(maxNum, history);
    HotCold(FrequencyTable(maxNum, history), maxNum)
  }

  /** The ranking is a duplicate-free list of `1..maxNum` running from a
      largest count to a smallest one. */
  lemma RankingFacts(f: Table, maxNum: nat, r: seq<int>)
    requires forall n :: n in f <==> 1 <= n <= maxNum
    requires maxNum > 0 && |r| == maxNum
    requires multiset(r) == multiset(Range(1, maxNum))
    requires Keyed(f, r) && Ranked(f, r)
    ensures Distinct(r) && AllIn(r, 1, maxNum)
    ensures forall n :: 1 <= n <= maxNum ==> f[r[0]] >= f[n] >= f[r[maxNum - 1]]
  {
    forall n | 1 <= n <= maxNum ensures f[r[0]] >= f[n] >= f[r[maxNum - 1]] {
      assert n in Range(1, maxNum);
      assert n in multiset(r);
      var k :| 0 <= k < |r| && r[k] == n;
      RankedBetweenEnds(f, r, k);
    }
    forall i | 0 <= i < |r| ensures 1 <= r[i] <= maxNum {
      assert r[i] in multiset(Range(1, maxNum));
    }
  }

  /** Every count of a ranked list lies between its first and its last. */
  lemma RankedBetweenEnds(f: Table, r: seq<int>, k: int)
    requires Keyed(f, r) && Ranked(f, r) && 0 <= k < |r|
    ensures f[r[0]] >= f[r[k]] >= f[r[|r| - 1]]
  {
    assert k == 0 || Precedes(f, r[0], r[k]);
    assert k == |r| - 1 || Precedes(f, r[k], r[|r| - 1]);
  }

  /** The first and the last ten places of a duplicate-free list of at least
      twenty hold different values. */
  lemma EndsDisjoint(r: seq<int>, hot: seq<int>, cold: seq<int>)
    requires Distinct(r) && |r| >= 2 * SliceSize
    requires hot == r[..SliceSize] && |cold| == SliceSize
    requires forall j :: 0 <= j < SliceSize ==> cold[j] == r[|r| - 1 - j]
    ensures Elems(hot) !! Elems(cold)
  {
    assert forall i, j :: 0 <= i < SliceSize && 0 <= j < SliceSize ==> hot[i] != cold[j];
  }
}

=== FILE: handler.dfy ===
/** The request handler of `api/analyze-lottery.js`: game dispatch, the
    scrape, the fallback, the analysis and the response body. The HTTP GET
    is an input: its outcome is either the table rows or the error it threw. */
module Handler {
  import opened Common
  import opened Lottery
  import opened Scrape
  import opened Fallback
  import opened Frequency
  import opened Recommend

  /** What `axios.get(url)` produced: the history table's rows, or a thrown
      error with its message. */
  datatype Fetch = Fetched(rows: seq<Row>) | FetchFailed(message: string)

  /** The `data` object of a successful response. */
  datatype Analysis = Analysis(
    gameType: string,
    analyzedDraws: nat,
    hotNumbers: seq<int>,
    coldNumbers: seq<int>,
    aiRecommendation: seq<int>,
    lastDraw: Option<Draw>)

  /** Status 200 with `data`, 400 for an unsupported type, 500 with the
      caught error's message. */
  datatype Response = Ok(data: Analysis) | BadType | ServerError(details: string)

  /** The shape every successful analysis has, whatever was scraped and
      whatever the oracle held. */
  predicate WellFormed(a: Analysis, g: Game) {
    var maxNum := MaxNum(g);
    && a.gameType == GameName(g)
    && a.analyzedDraws > 0
    && |a.hotNumbers| == SliceSize && |a.coldNumbers| == SliceSize
    && Distinct(a.hotNumbers) && Distinct(a.coldNumbers)
    && AllIn(a.hotNumbers, 1, maxNum) && AllIn(a.coldNumbers, 1, maxNum)
    && Elems(a.hotNumbers) !! Elems(a.coldNumbers)
    && |a.aiRecommendation| == Picked
    && Ascending(a.aiRecommendation) && AllIn(a.aiRecommendation, 1, maxNum)
    && |Elems(a.aiRecommendation) * Elems(a.hotNumbers)| >= AfterHot
    && Elems(a.aiRecommendation) * Elems(a.coldNumbers) != {}
    && a.lastDraw.Some?
  }

  /** Counting, ranking, slicing and recommending over a non-empty history. */
  function Summarise(g: Game, history: seq<Draw>, oracle: seq<Random>): (a: Analysis)
    requires |history| > 0
    ensures WellFormed(a, g)
    ensures a.analyzedDraws == |history| && a.lastDraw == Some(history[0])
    ensures SlicedByCount(history, MaxNum(g), a.hotNumbers, a.coldNumbers)
  {
    var maxNum := MaxNum(g);
    var hc := HistorySlices(maxNum, history);
    SlicesFeedRecommendation(hc.hot, hc.cold);
    var ai := AiNumbers(hc.hot, hc.cold, maxNum, oracle);
    Analysis(GameName(g), |history|, hc.hot, hc.cold, ai.value, Some(history[0]))
  }

  /** Ten distinct hot numbers and a disjoint cold slice give the
      recommendation loops what they need to end. */
  lemma SlicesFeedRecommendation(hot: seq<int>, cold: seq<int>)
    requires |hot| == SliceSize && Distinct(hot) && |cold| == SliceSize && Elems(hot) !! Elems(cold)
    ensures |Elems(hot)| >= AfterHot && Elems(cold) - Elems(hot) != {}
  {
    DistinctCard(hot);
    assert cold[0] in Elems(cold) - Elems(hot);
  }

  /** Everything after the row loop: fall back to synthetic draws when no
      row was accepted, then summarise. */
  function Analyze(g: Game, scraped: seq<Draw>, oracle: seq<Random>): (a: Analysis)
    ensures WellFormed(a, g)
    ensures scraped != [] ==> a.analyzedDraws == |scraped| && a.lastDraw == Some(scraped[0])
    ensures scraped == [] ==> a.analyzedDraws == SyntheticDraws && ValidSynthetic(a.lastDraw.value, MaxNum(g))
    ensures a.lastDraw == Some(History(g, scraped, oracle).value[0])
    ensures SlicedByCount(History(g, scraped, oracle).value, MaxNum(g), a.hotNumbers, a.coldNumbers)
    ensures Reports(g, scraped, oracle, a)
  {
    var h := History(g, scraped, oracle);
    var a := Summarise(g, h.value, h.rest);
    assert a.lastDraw == Some(h.value[0]);
    a
  }

  /** With nothing scraped, `lastDraw` is the first synthetic draw, the one
      labelled `模擬第 0 期`. */
  lemma EmptyScrapeReportsFirstSynthetic(g: Game, oracle: seq<Random>)
    ensures var a := Analyze(g, [], oracle);
      a.lastDraw.Some? && a.lastDraw.value.drawDate == SyntheticLabel(0)
  {
    var h := History(g, [], oracle);
    assert h.value[0].drawDate == SyntheticLabel(0);
  }

  /** The body reports what the row loop collected: a non-empty scrape's
      length and first row, or the 50 synthetic draws; and hot and cold are
      the analysed history's ten most and ten least frequent numbers. */
  predicate Reports(g: Game, scraped: seq<Draw>, oracle: seq<Random>, a: Analysis) {
    var history := History(g, scraped, oracle).value;
    && (scraped != [] ==> a.analyzedDraws == |scraped| && a.lastDraw == Some(scraped[0]))
    && (scraped == [] ==> a.analyzedDraws == SyntheticDraws)
    && history != [] && a.lastDraw == Some(history[0])
    && |a.hotNumbers| == SliceSize && |a.coldNumbers| == SliceSize
    && SlicedByCount(history, MaxNum(g), a.hotNumbers, a.coldNumbers)
  }

  /** `handler(req, res)` for a GET: the `type` query value (absent or
      present), the outcome of the scrape, and the random oracle. An
      unsupported type is refused before anything is fetched. */
  function Handle(query: Option<string>, fetch: Fetch, oracle: seq<Random>): (r: Response)
    ensures r.BadType? <==> ParseGame(query).None?
    ensures r.ServerError? <==> ParseGame(query).Some? && fetch.FetchFailed?
    ensures r.ServerError? ==> r.details == fetch.message
    ensures r.Ok? ==> WellFormed(r.data, ParseGame(query).value)
    ensures r.Ok? && query.Some? ==> r.data.gameType == query.value
    ensures ParseGame(query).Some? && fetch.Fetched? ==>
      var g := ParseGame(query).value;
      var scraped := ScrapeRows(g, fetch.rows);
      r.Ok? && Reports(g, scraped, oracle, r.data)
  {
    match ParseGame(query)
    case None => BadType
    case Some(g) =>
      match fetch
      case FetchFailed(msg) => ServerError(msg)
      case Fetched(rows) => Ok(Analyze(g, ScrapeRows(g, rows), oracle))
  }

  /** A refused type is refused whatever the fetch and the oracle would
      have been: no fetch and no random draw influence the answer. */
  lemma BadTypeIgnoresFetch(query: Option<string>, f1: Fetch, f2: Fetch, o1: seq<Random>, o2: seq<Random>)
    requires ParseGame(query).None?
    ensures Handle(query, f1, o1) == Handle(query, f2, o2) == BadType
  {
  }
}

=== FILE: lottery.dfy ===
/** The analysis endpoint's vocabulary: the two supported games, the
    `type` query parameter's dispatch, and a draw record. */
module Lottery {
  import opened Common

  /** The games `api/analyze-lottery.js` accepts. */
  datatype Game = SuperLotto | Lotto649

  /** The `type` query value naming a game. */
  function GameName(g: Game): string {
    match g
    case SuperLotto => "superLotto"
    case Lotto649 => "lotto649"
  }

  /** `const { type = 'superLotto' } = req.query` followed by the dispatch:
      an absent `type` means `superLotto`; anything other than the two game
      names is rejected. */
  function ParseGame(query: Option<string>): (g: Option<Game>)
    ensures query.None? ==> g == Some(SuperLotto)
    ensures query.Some? ==> (g.Some? <==> query.value in {"superLotto", "lotto649"})
    ensures g.Some? && query.Some? ==> GameName(g.value) == query.value
  {
    var t := match query case None => "superLotto" case Some(s) => s;
    if t == "superLotto" then Some(SuperLotto)
    else if t == "lotto649" then Some(Lotto649)
    else None
  }

  /** The largest ball number of a game. */
  function MaxNum(g: Game): (m: nat)
    ensures m >= 20
    ensures m == if g == SuperLotto then 38 else 49
  {
    match g
    case SuperLotto => 38
    case Lotto649 => 49
  }

  /** Six balls are drawn in both games. */
  const BallCount: nat := 6

  /** The second-area (special) number of a synthetic draw lies in 1..8. */
  const SpecialMax: nat := 8

  /** One historical draw: `{ drawDate, numbers, special }`. */
  datatype Draw = Draw(drawDate: string, numbers: seq<int>, special: Option<int>)

}

=== FILE: recommend.dfy ===
/** `generateAiNumbers`: three hot numbers, one cold number, random numbers
    up to six, sorted ascending. */
module Recommend {
  import opened Common
  import opened Sampling
  import opened Sorting

  /** Set sizes after each of the three loops. */
  const AfterHot: nat := 3
  const AfterCold: nat := 4
  const Picked: nat := 6

  /** `while (selection.size < 3)` over the hot numbers. */
  function PickHot(hot: seq<int>, maxNum: nat, oracle: seq<Random>): (r: Drawn<seq<int>>)
    requires |Elems(hot)| >= AfterHot && AllIn(hot, 1, maxNum)
    ensures |r.value| == AfterHot && Distinct(r.value) && Elems(r.value) <= Elems(hot)
    ensures AllIn(r.value, 1, maxNum)
  {
    assert Elems(hot) - Elems([]) == Elems(hot);
    assert Room([], AfterHot, hot);
    FillInRange([], AfterHot, hot, oracle, 1, maxNum);
    var p := Fill([], AfterHot, hot, oracle);
    assert forall i :: 0 <= i < |p.value| ==> p.value[i] in hot;
    p
  }

  /** `while (selection.size < 4)` over the cold numbers. */
  function PickCold(s1: seq<int>, cold: seq<int>, maxNum: nat, oracle: seq<Random>): (r: Drawn<seq<int>>)
    requires |s1| == AfterHot && Distinct(s1) && AllIn(s1, 1, maxNum)
    requires Elems(cold) - Elems(s1) != {} && AllIn(cold, 1, maxNum)
    ensures |r.value| == AfterCold && Distinct(r.value) && s1 <= r.value && r.value[AfterHot] in cold
    ensures AllIn(r.value, 1, maxNum)
  {
    assert |cold| > 0;
    assert Room(s1, AfterCold, cold);
    FillInRange(s1, AfterCold, cold, oracle, 1, maxNum);
    Fill(s1, AfterCold, cold, oracle)
  }

  /** `while (selection.size < 6)` over `1..maxNum`. */
  function PickRandom(s2: seq<int>, maxNum: nat, oracle: seq<Random>): (r: Drawn<seq<int>>)
    requires |s2| == AfterCold && Distinct(s2) && AllIn(s2, 1, maxNum) && maxNum >= Picked
    ensures |r.value| == Picked && Distinct(r.value) && s2 <= r.value && AllIn(r.value, 1, maxNum)
  {
    RangeRoom(s2, Picked, 1, maxNum);
    FillInRange(s2, Picked, Range(1, maxNum), oracle, 1, maxNum);
    Fill(s2, Picked, Range(1, maxNum), oracle)
  }

  /** The recommendation and the unread oracle. The loops need at least three
      distinct hot values and a cold value outside the three hot picks, or
      they would never end; a cold value that is not hot is one whatever the
      picks. The slices of a game with at least 20 numbers provide both. */
  function AiNumbers(hot: seq<int>, cold: seq<int>, maxNum: nat, oracle: seq<Random>): (r: Drawn<seq<int>>)
    requires |Elems(hot)| >= AfterHot && Elems(cold) - Elems(hot) != {}
    requires maxNum >= Picked && AllIn(hot, 1, maxNum) && AllIn(cold, 1, maxNum)
    ensures |r.value| == Picked && Ascending(r.value) && AllIn(r.value, 1, maxNum)
    ensures |Elems(r.value) * Elems(hot)| >= AfterHot
    ensures Elems(r.value) * Elems(cold) != {}
  {
    var p1 := PickHot(hot, maxNum, oracle);
    var p2 := PickCold(p1.value, cold, maxNum, p1.rest);
    var p3 := PickRandom(p2.value, maxNum, p2.rest);
    var sorted := SortAscending(p3.value);
    SortDistinct(p3.value);
    SortInRange(p3.value, 1, maxNum);
    HotAndColdKept(hot, cold, p1.value, p2.value, p3.value, sorted);
    Drawn(sorted, p3.rest)
  }

  /** The hot picks and the cold pick survive the fill and the sort. */
  lemma HotAndColdKept(hot: seq<int>, cold: seq<int>, s1: seq<int>, s2: seq<int>, s3: seq<int>, sorted: seq<int>)
    requires |s1| == AfterHot && Distinct(s1) && Elems(s1) <= Elems(hot)
    requires |s2| == AfterCold && s1 <= s2 && s2[AfterHot] in cold
    requires s2 <= s3 && Elems(sorted) == Elems(s3)
    ensures |Elems(sorted) * Elems(hot)| >= AfterHot
    ensures Elems(sorted) * Elems(cold) != {}
  {
    assert forall i :: 0 <= i < |s1| ==> s1[i] == s3[i];
    assert Elems(s1) <= Elems(sorted) * Elems(hot);
    DistinctCard(s1);
    SubsetCard(Elems(s1), Elems(sorted) * Elems(hot));
    assert s2[AfterHot] == s3[AfterHot];
    assert s2[AfterHot] in Elems(sorted) * Elems(cold);
  }
}

=== FILE: sampling.dfy ===
/** The retry loop `while (set.size < target) set.add(pool[Math.floor(Math.random() * pool.length)])`
    shared by the synthetic history and the recommendation. The loop only
    stops once the random picks have hit enough new values, so it is modelled
    with the oracle as fuel: picks are read while the oracle lasts, and once
    it is drained each missing value is the first pool element not yet in
    the set, a value the loop could equally have drawn next. */
module Sampling {
  import opened Common

  /** The pool still holds at least `target - |acc|` values the set lacks,
      so the loop can finish. */
  predicate Room(acc: seq<int>, target: nat, pool: seq<int>) {
    |Elems(pool) - Elems(acc)| >= target - |acc|
  }

  /** The first element of `pool` that `acc` lacks. */
  function FirstUnused(pool: seq<int>, acc: seq<int>): (x: int)
    requires exists i :: 0 <= i < |pool| && pool[i] !in acc
    ensures x in pool && x !in acc
  {
    if pool[0] !in acc then pool[0]
    else
      assert exists i :: 0 <= i < |pool[1..]| && pool[1..][i] !in acc by {
        var i :| 0 <= i < |pool| && pool[i] !in acc;
        assert pool[1..][i - 1] == pool[i];
      }
      FirstUnused(pool[1..], acc)
  }

  lemma UnusedExists(pool: seq<int>, acc: seq<int>)
    requires |Elems(pool) - Elems(acc)| >= 1
    ensures exists i :: 0 <= i < |pool| && pool[i] !in acc
  {
    if forall i :: 0 <= i < |pool| ==> pool[i] in acc {
      assert false;
    }
  }

  /** Adding a pool value the set lacks uses up one unit of room. */
  lemma AddUnused(acc: seq<int>, target: nat, pool: seq<int>, x: int)
    requires Room(acc, target, pool) && x in pool && x !in acc
    ensures Room(acc + [x], target, pool)
  {
    var d := Elems(pool) - Elems(acc);
    assert Elems(acc + [x]) == Elems(acc) + {x};
    assert Elems(pool) - Elems(acc + [x]) == d - {x};
    assert x in d;
  }

  /** The set after the loop, in insertion order, and the unread oracle. */
  function Fill(acc: seq<int>, target: nat, pool: seq<int>, oracle: seq<Random>): (r: Drawn<seq<int>>)
    requires Distinct(acc) && |acc| <= target && |pool| > 0
    requires Room(acc, target, pool)
    ensures |r.value| == target && Distinct(r.value)
    ensures acc <= r.value
    ensures forall i :: |acc| <= i < |r.value| ==> r.value[i] in pool
    ensures Unread(r.rest, oracle)
    decreases |oracle|, target - |acc|
  {
    if |acc| == target then Drawn(acc, oracle)
    else if oracle == [] then
      UnusedExists(pool, acc);
      var x := FirstUnused(pool, acc);
      AddUnused(acc, target, pool, x);
      var r := Fill(acc + [x], target, pool, []);
      PrefixStep(acc, x, r.value, pool);
      r
    else
      var x := pool[Scale(oracle[0], |pool|)];
      if x in acc then
        var r := Fill(acc, target, pool, oracle[1..]);
        UnreadStep(r.rest, oracle);
        r
      else
        AddUnused(acc, target, pool, x);
        var r := Fill(acc + [x], target, pool, oracle[1..]);
        PrefixStep(acc, x, r.value, pool);
        UnreadStep(r.rest, oracle);
        r
  }

  /** `rest` is what is left of `oracle` after some values were read. */
  predicate Unread(rest: seq<Random>, oracle: seq<Random>) {
    |rest| <= |oracle| && rest == oracle[|oracle| - |rest|..]
  }

  /** What is left after the first value is also left of the whole. */
  lemma UnreadStep(rest: seq<Random>, oracle: seq<Random>)
    requires oracle != [] && Unread(rest, oracle[1..])
    ensures Unread(rest, oracle)
  {
    assert oracle[1..][|oracle| - 1 - |rest|..] == oracle[|oracle| - |rest|..];
  }

  /** Extending the set by one pool value keeps the prefix and pool facts. */
  lemma PrefixStep(acc: seq<int>, x: int, r: seq<int>, pool: seq<int>)
    requires acc + [x] <= r && x in pool
    requires forall i :: |acc| + 1 <= i < |r| ==> r[i] in pool
    ensures acc <= r
    ensures forall i :: |acc| <= i < |r| ==> r[i] in pool
  {
    assert r[|acc|] == (acc + [x])[|acc|];
  }

  /** What `Fill` adds comes from the pool, so a set started inside a range
      and filled from a pool inside that range stays inside it. */
  lemma FillInRange(acc: seq<int>, target: nat, pool: seq<int>, oracle: seq<Random>, lo: int, hi: int)
    requires Distinct(acc) && |acc| <= target && |pool| > 0
    requires Room(acc, target, pool)
    requires AllIn(acc, lo, hi) && AllIn(pool, lo, hi)
    ensures AllIn(Fill(acc, target, pool, oracle).value, lo, hi)
  {
    var r := Fill(acc, target, pool, oracle).value;
    forall i | 0 <= i < |r| ensures lo <= r[i] <= hi {
      if i < |acc| {
        assert r[i] == acc[i];
      } else {
        assert r[i] in pool;
      }
    }
  }

  /** A range holds as many values as its length, so a set of `k` values
      leaves room for the remaining `target - k` whenever `target <= |pool|`. */
  lemma RangeRoom(acc: seq<int>, target: nat, lo: int, hi: int)
    requires Distinct(acc) && |acc| <= target <= hi - lo + 1
    ensures Room(acc, target, Range(lo, hi))
  {
    var pool := Range(lo, hi);
    assert Distinct(pool);
    DistinctCard(pool);
    DistinctCard(acc);
    DiffCard(Elems(pool), Elems(acc));
  }
}

=== FILE: scrape.dfy ===
/** Row normalisation of the scraped history table: which rows become draws,
    which spans become balls and which becomes the special number. The HTML
    itself is not modelled; a row arrives as its text and its `<span>`
    descendants in document order. */
module Scrape {
  import opened Common
  import opened Text
  import opened Lottery

  /** A `<span>` descendant of a row: its `id` attribute (empty when absent)
      and its text. */
  datatype Span = Span(id: string, text: string)

  /** One `table.td_hm tr` element: its full text and its spans. */
  datatype Row = Row(text: string, spans: seq<Span>)

  /** The id patterns of the selectors `span[id*="..."]`. */
  const BallPattern: string := "SNo"
  const SpecialPattern: string := "No7"
  const Lotto649SpecialPattern: string := "SNo7"
  const DatePattern: string := "DrawDate"

  /** The values `parseInt(text, 10)` yields for the spans matching
      `span[id*=pattern]`, in document order, `NaN` results dropped. */
  function Collect(spans: seq<Span>, pattern: string): (r: seq<int>)
    ensures |r| <= |spans|
  {
    if spans == [] then [] else Matched(spans[0], pattern) + Collect(spans[1..], pattern)
  }

  /** What one span contributes: its number when its id matches and its
      text parses, nothing otherwise. */
  function Matched(span: Span, pattern: string): seq<int> {
    var v := if Contains(span.id, pattern) then ParseInt(span.text) else None;
    if v.Some? then [v.value] else []
  }

  /** On one span, `Collect` yields its number when the id contains the
      pattern and the text parses, and nothing otherwise. */
  lemma CollectSingle(span: Span, pattern: string)
    ensures var v := ParseInt(span.text);
      Collect([span], pattern) == if Contains(span.id, pattern) && v.Some? then [v.value] else []
  {
    assert [span][1..] == [];
  }

  /** `Collect` keeps, in order, exactly the numeric matching spans: it is
      determined by its value on one span and by concatenation. */
  lemma {:induction false} CollectAppend(a: seq<Span>, b: seq<Span>, pattern: string)
    ensures Collect(a + b, pattern) == Collect(a, pattern) + Collect(b, pattern)
  {
    if a != [] {
      var ab := a + b;
      assert ab[0] == a[0] && ab[1..] == a[1..] + b;
      CollectAppend(a[1..], b, pattern);
      assert Collect(ab, pattern) == Matched(a[0], pattern) + Collect(a[1..] + b, pattern);
    } else {
      assert a + b == b;
    }
  }

  /** `$(row).find('span[id*="DrawDate"]').text()`: the matched spans' texts
      concatenated. */
  function DateText(spans: seq<Span>): (d: string)
    ensures (forall j :: 0 <= j < |spans| ==> !Contains(spans[j].id, DatePattern)) ==> d == ""
  {
    if spans == [] then ""
    else (if Contains(spans[0].id, DatePattern) then spans[0].text else "") + DateText(spans[1..])
  }

  /** On one span, `DateText` is its text when the id contains the date
      pattern, and empty otherwise. */
  lemma DateTextSingle(span: Span)
    ensures DateText([span]) == if Contains(span.id, DatePattern) then span.text else ""
  {
    assert [span][1..] == [];
  }

  /** The date spans' texts are joined in document order. */
  lemma {:induction false} DateTextAppend(a: seq<Span>, b: seq<Span>)
    ensures DateText(a + b) == DateText(a) + DateText(b)
  {
    if a != [] {
      var ab := a + b;
      assert ab[0] == a[0] && ab[1..] == a[1..] + b;
      DateTextAppend(a[1..], b);
    } else {
      assert a + b == b;
    }
  }

  /** The special-number candidates: the `No7` spans, and for `lotto649`
      the `SNo7` spans when the first selector found nothing. Every id
      containing `SNo7` contains `No7`, so the second selector only runs when
      it cannot find anything: both games read the special number from the
      `No7` spans alone. */
  function SpecialTokens(g: Game, spans: seq<Span>): (r: seq<int>)
    ensures r == Collect(spans, SpecialPattern)
  {
    var first := Collect(spans, SpecialPattern);
    if g == Lotto649 && first == [] then
      SubsumedPatternEmpty(spans);
      Collect(spans, Lotto649SpecialPattern)
    else first
  }

  /** `special[0] || null`: the first candidate, except that a missing one and
      a `0` both give `null`. */
  function FirstSpecial(tokens: seq<int>): (sp: Option<int>)
    ensures sp.Some? <==> tokens != [] && tokens[0] != 0
    ensures sp.Some? ==> sp.value == tokens[0]
  {
    if tokens != [] && tokens[0] != 0 then Some(tokens[0]) else None
  }

  /** One row of the table, as the `tableRows.each` callback treats it. */
  function ParseRow(g: Game, row: Row): (r: Option<Draw>)
    ensures r.Some? <==> !IsBlank(row.text) && |Collect(row.spans, BallPattern)| >= BallCount
    ensures r.Some? ==> r.value.numbers == Collect(row.spans, BallPattern)[..BallCount]
    ensures r.Some? ==> r.value.special == FirstSpecial(SpecialTokens(g, row.spans))
    ensures r.Some? ==> r.value.drawDate == DateText(row.spans)
  {
    if IsBlank(row.text) then None
    else
      var balls := Collect(row.spans, BallPattern);
      if |balls| >= BallCount then
        Some(Draw(DateText(row.spans), balls[..BallCount], FirstSpecial(SpecialTokens(g, row.spans))))
      else None
  }

  /** Where no id contains `No7`, none contains `SNo7`. */
  lemma {:induction false} SubsumedPatternEmpty(spans: seq<Span>)
    requires Collect(spans, SpecialPattern) == []
    ensures Collect(spans, Lotto649SpecialPattern) == []
  {
    if spans != [] {
      assert Lotto649SpecialPattern == "S" + SpecialPattern;
      if Contains(spans[0].id, Lotto649SpecialPattern) {
        ContainsSuffixPattern(spans[0].id, "S", SpecialPattern);
      }
      SubsumedPatternEmpty(spans[1..]);
    }
  }

  /** What one row adds to `historyData`: its draw, or nothing. */
  function Accept(g: Game, row: Row): (r: seq<Draw>)
    ensures |r| <= 1 && (r == [] <==> ParseRow(g, row).None?)
    ensures r != [] ==> r[0] == ParseRow(g, row).value && |r[0].numbers| == BallCount
  {
    match ParseRow(g, row)
    case Some(d) => [d]
    case None => []
  }

  /** The `historyData` the loop over all rows builds, in table order. */
  function ScrapeRows(g: Game, rows: seq<Row>): (r: seq<Draw>)
    ensures |r| <= |rows|
  {
    if rows == [] then [] else Accept(g, rows[0]) + ScrapeRows(g, rows[1..])
  }

  /** On one row, the loop appends exactly what `Accept` gives for it. */
  lemma ScrapeRowsSingle(g: Game, row: Row)
    ensures ScrapeRows(g, [row]) == Accept(g, row)
  {
    assert [row][1..] == [];
  }

  /** Every draw of `ds` has six numbers. */
  predicate AllSix(ds: seq<Draw>) {
    forall i :: 0 <= i < |ds| ==> |ds[i].numbers| == BallCount
  }

  lemma AllSixAppend(a: seq<Draw>, b: seq<Draw>)
    requires AllSix(a) && AllSix(b)
    ensures AllSix(a + b)
  {
    assert forall i :: |a| <= i < |a + b| ==> (a + b)[i] == b[i - |a|];
  }

  /** Every scraped draw has six numbers. */
  lemma {:induction false} ScrapedHaveSixNumbers(g: Game, rows: seq<Row>)
    ensures AllSix(ScrapeRows(g, rows))
  {
    if rows != [] {
      ScrapedHaveSixNumbers(g, rows[1..]);
      AllSixAppend(Accept(g, rows[0]), ScrapeRows(g, rows[1..]));
    }
  }

  /** Whether the row loop skips `row`. */
  predicate Skipped(g: Game, row: Row) {
    ParseRow(g, row).None?
  }

  /** The scrape is empty exactly when every row was skipped. */
  lemma {:induction false} ScrapeEmptyIff(g: Game, rows: seq<Row>)
    ensures ScrapeRows(g, rows) == [] <==> forall i :: 0 <= i < |rows| ==> Skipped(g, rows[i])
  {
    if rows != [] {
      var rest := rows[1..];
      ScrapeEmptyIff(g, rest);
      var a := Accept(g, rows[0]);
      assert ScrapeRows(g, rows) == a + ScrapeRows(g, rest);
      if Skipped(g, rows[0]) {
        assert forall i :: 1 <= i < |rows| ==> rows[i] == rest[i - 1];
      }
    }
  }

  /** Rows are appended in table order: scraping two blocks of rows is
      scraping each and concatenating. */
  lemma {:induction false} ScrapeRowsAppend(g: Game, a: seq<Row>, b: seq<Row>)
    ensures ScrapeRows(g, a + b) == ScrapeRows(g, a) + ScrapeRows(g, b)
  {
    if a != [] {
      var ab := a + b;
      assert ab[0] == a[0] && ab[1..] == a[1..] + b;
      ScrapeRowsAppend(g, a[1..], b);
      assert ScrapeRows(g, ab) == Accept(g, a[0]) + ScrapeRows(g, a[1..] + b);
    } else {
      assert a + b == b;
    }
  }
}

=== FILE: sorting.dfy ===
/** `array.sort((a, b) => a - b)`: the numeric ascending sort applied to the
    recommendation and to `generateUniqueNumbers`' result. */
module Sorting {
  import opened Common

  /** Each element is at most the next one. This neighbour form is what the
      insertion proofs unfold; it is cheaper for the solver than
      `Common.NonDecreasing`, and `SortedNonDecreasing` turns it into that. */
  predicate Sorted(s: seq<int>) {
    |s| <= 1 || (s[0] <= s[1] && Sorted(s[1..]))
  }

  /** Sorted neighbours mean a sorted whole: every earlier element is at most
      every later one. */
  lemma {:induction false} SortedNonDecreasing(s: seq<int>)
    requires Sorted(s)
    ensures NonDecreasing(s)
  {
    if |s| > 1 {
      SortedNonDecreasing(s[1..]);
      forall i, j | 0 <= i < j < |s| ensures s[i] <= s[j] {
        if i > 0 {
          assert s[i] == s[1..][i - 1] && s[j] == s[1..][j - 1];
        } else {
          assert s[1] == s[1..][0] && s[j] == s[1..][j - 1];
        }
      }
    }
  }

  /** Inserts `x` into the sorted `s` before the first larger element. */
  function InsertAscending(x: int, s: seq<int>): (r: seq<int>)
    requires Sorted(s)
    ensures Sorted(r)
    ensures |r| == |s| + 1
    ensures r[0] == if s == [] || x <= s[0] then x else s[0]
  {
    if s == [] then [x]
    else if x <= s[0] then
      assert ([x] + s)[1..] == s;
      [x] + s
    else
      var t := InsertAscending(x, s[1..]);
      assert ([s[0]] + t)[1..] == t;
      [s[0]] + t
  }

  /** Insertion adds exactly one copy of `x` and loses nothing. */
  lemma {:induction false} InsertAscendingPermutes(x: int, s: seq<int>)
    requires Sorted(s)
    ensures multiset(InsertAscending(x, s)) == multiset(s) + multiset{x}
  {
    if s == [] {
    } else if x <= s[0] {
      assert multiset([x] + s) == multiset([x]) + multiset(s);
    } else {
      InsertAscendingPermutes(x, s[1..]);
      var t := InsertAscending(x, s[1..]);
      assert InsertAscending(x, s) == [s[0]] + t;
      assert multiset([s[0]] + t) == multiset([s[0]]) + multiset(t);
      assert s == [s[0]] + s[1..];
      assert multiset(s) == multiset([s[0]]) + multiset(s[1..]);
    }
  }

  /** Insertion sort. */
  function InsertionSort(s: seq<int>): (r: seq<int>)
    ensures Sorted(r)
    ensures multiset(r) == multiset(s)
    ensures |r| == |s|
  {
    if s == [] then []
    else
      var t := InsertionSort(s[1..]);
      assert s == [s[0]] + s[1..];
      assert multiset(s) == multiset([s[0]]) + multiset(s[1..]);
      InsertAscendingPermutes(s[0], t);
      InsertAscending(s[0], t)
  }

  /** The numeric ascending sort: a non-decreasing permutation. */
  function SortAscending(s: seq<int>): (r: seq<int>)
    ensures NonDecreasing(r)
    ensures multiset(r) == multiset(s)
    ensures |r| == |s|
  {
    var r := InsertionSort(s);
    SortedNonDecreasing(r);
    r
  }

  /** Sorting a duplicate-free sequence gives a strictly ascending sequence
      with the same elements. */
  lemma SortDistinct(s: seq<int>)
    requires Distinct(s)
    ensures Ascending(SortAscending(s))
    ensures Elems(SortAscending(s)) == Elems(s)
  {
    var r := SortAscending(s);
    assert forall x :: x in r <==> x in multiset(r);
    assert forall x :: x in s <==> x in multiset(s);
    MultisetDistinct(s);
    forall i, j | 0 <= i < j < |r| ensures r[i] < r[j] {
      if r[i] == r[j] {
        TwiceMeansCountTwo(r, i, j);
        assert false;
      }
    }
  }

  /** Sorting keeps every element inside a range that held them all. */
  lemma SortInRange(s: seq<int>, lo: int, hi: int)
    requires AllIn(s, lo, hi)
    ensures AllIn(SortAscending(s), lo, hi)
  {
    var r := SortAscending(s);
    forall i | 0 <= i < |r| ensures lo <= r[i] <= hi {
      assert r[i] in multiset(s);
    }
  }

  lemma {:induction false} MultisetDistinct(s: seq<int>)
    requires Distinct(s)
    ensures forall x :: multiset(s)[x] <= 1
  {
    if s != [] {
      MultisetDistinct(s[1..]);
      assert s == [s[0]] + s[1..];
      assert s[0] !in s[1..];
    }
  }

  lemma {:induction false} TwiceMeansCountTwo(s: seq<int>, i: nat, j: nat)
    requires i < j < |s| && s[i] == s[j]
    ensures multiset(s)[s[i]] >= 2
  {
    assert s == s[..i] + [s[i]] + s[i + 1..j] + [s[j]] + s[j + 1..];
  }
}

=== FILE: text.dfy ===
/** The string operations the pipeline relies on: JavaScript whitespace and
    `trim`, substring matching for `[id*="..."]` selectors, `parseInt(s, 10)`,
    and the decimal rendering of integers used by template literals. */
module Text {
  import opened Common

  /** ECMAScript WhiteSpace and LineTerminator code points, the characters
      `String.prototype.trim` and `parseInt` skip. */
  predicate IsJsSpace(c: char) {
    || c == '\t' || c == '\n' || c == '\U{000B}' || c == '\U{000C}' || c == '\r'
    || c == ' ' || c == '\U{00A0}' || c == '\U{1680}'
    || ('\U{2000}' <= c <= '\U{200A}')
    || c == '\U{2028}' || c == '\U{2029}' || c == '\U{202F}' || c == '\U{205F}'
    || c == '\U{3000}' || c == '\U{FEFF}'
  }

  /** Drops leading whitespace. */
  function TrimStart(s: string): (r: string)
    ensures |r| <= |s| && r == s[|s| - |r|..]
    ensures r != [] ==> !IsJsSpace(r[0])
    ensures forall i :: 0 <= i < |s| - |r| ==> IsJsSpace(s[i])
  {
    if s != [] && IsJsSpace(s[0]) then TrimStart(s[1..]) else s
  }

  /** `s.trim()` is the empty string, which is exactly when every character
      of `s` is whitespace. */
  predicate IsBlank(s: string) {
    TrimStart(s) == []
  }

  lemma BlankIffAllSpace(s: string)
    ensures IsBlank(s) <==> forall i :: 0 <= i < |s| ==> IsJsSpace(s[i])
  {
    var r := TrimStart(s);
    if r != [] {
      assert s[|s| - |r|] == r[0];
    }
  }

  /** `haystack.includes(needle)`, the test behind `[id*="needle"]`. */
  predicate Contains(haystack: string, needle: string)
    decreases |haystack|
  {
    if |haystack| < |needle| then false
    else haystack[..|needle|] == needle || Contains(haystack[1..], needle)
  }

  /** Any string containing `b + a` contains `a`. */
  lemma {:induction false} ContainsSuffixPattern(h: string, b: string, a: string)
    requires Contains(h, b + a)
    ensures Contains(h, a)
    decreases |h|
  {
    if h[..|b + a|] == b + a {
      ContainsAt(h, |b|, a);
    } else {
      ContainsSuffixPattern(h[1..], b, a);
    }
  }

  /** An occurrence of `a` at offset `k` of `h`. */
  lemma {:induction false} ContainsAt(h: string, k: nat, a: string)
    requires k + |a| <= |h| && h[k..k + |a|] == a
    ensures Contains(h, a)
    decreases k
  {
    if k > 0 {
      assert h[1..][k - 1..k - 1 + |a|] == h[k..k + |a|];
      ContainsAt(h[1..], k - 1, a);
    } else {
      assert h[..|a|] == h[0..0 + |a|];
    }
  }

  predicate IsDigit(c: char) {
    '0' <= c <= '9'
  }

  predicate AllDigits(s: string) {
    forall i :: 0 <= i < |s| ==> IsDigit(s[i])
  }

  /** The longest prefix of decimal digits. */
  function DigitPrefix(s: string): (r: string)
    ensures |r| <= |s| && r == s[..|r|]
    ensures AllDigits(r)
    ensures |r| < |s| ==> !IsDigit(s[|r|])
  {
    if s != [] && IsDigit(s[0]) then [s[0]] + DigitPrefix(s[1..]) else []
  }

  /** The value of a digit string, read most significant digit first. */
  function DigitsValue(d: string): (v: nat)
    requires AllDigits(d)
  {
    if d == [] then 0 else DigitsValue(d[..|d| - 1]) * 10 + (d[|d| - 1] - '0') as nat
  }

  /** `parseInt(s, 10)`: leading whitespace, an optional sign, then the
      longest run of digits; `None` plays the role of `NaN`. */
  function ParseInt(s: string): (r: Option<int>)
    ensures r.None? <==> DigitPrefix(SignFree(TrimStart(s))) == []
  {
    var t := TrimStart(s);
    var u := SignFree(t);
    var d := DigitPrefix(u);
    var v: int := if d == [] then 0 else DigitsValue(d);
    if d == [] then None
    else if t[0] == '-' then Some(-v)
    else Some(v)
  }

  /** The text after an optional leading `+` or `-`. */
  function SignFree(t: string): (u: string)
    ensures |t| - 1 <= |u| <= |t| && u == t[|t| - |u|..]
    ensures |u| < |t| <==> t != [] && (t[0] == '-' || t[0] == '+')
  {
    if t != [] && (t[0] == '-' || t[0] == '+') then t[1..] else t
  }

  function DigitChar(d: nat): (c: char)
    requires d < 10
    ensures IsDigit(c) && (c - '0') as nat == d
  {
    ('0' as int + d) as char
  }

  /** The decimal text of a natural number, no leading zeros. */
  function NatToString(n: nat): (s: string)
    ensures |s| >= 1 && AllDigits(s)
    ensures n < 10 <==> |s| == 1
    ensures 10 <= n < 100 <==> |s| == 2
    ensures s[0] == '0' ==> n == 0
  {
    if n < 10 then [DigitChar(n)] else NatToString(n / 10) + [DigitChar(n % 10)]
  }

  /** `${n}` for an integer `n`. */
  function IntToString(n: int): (s: string)
    ensures |s| >= 1 && (s[0] == '-' <==> n < 0)
    ensures AllDigits(if n < 0 then s[1..] else s) && |s| >= (if n < 0 then 2 else 1)
    ensures s[0] == '0' ==> n == 0
  {
    if n < 0 then "-" + NatToString(-n) else NatToString(n)
  }

  /** Reading back the digits of `NatToString(n)` gives `n`. */
  lemma {:induction false} DigitsValueOfNatToString(n: nat)
    ensures DigitsValue(NatToString(n)) == n
  {
    var s := NatToString(n);
    if n >= 10 {
      DigitsValueOfNatToString(n / 10);
      assert s[..|s| - 1] == NatToString(n / 10);
    }
  }

  /** Leading zeros do not change a digit string's value. */
  lemma {:induction false} DigitsValueLeadingZero(d: string)
    requires AllDigits(d)
    ensures DigitsValue("0" + d) == DigitsValue(d)
  {
    if d != [] {
      var z := "0" + d;
      assert z[..|z| - 1] == "0" + d[..|d| - 1];
      DigitsValueLeadingZero(d[..|d| - 1]);
    }
  }

  /** A string made of digits only is its own digit prefix. */
  lemma {:induction false} DigitPrefixOfDigits(d: string)
    requires AllDigits(d)
    ensures DigitPrefix(d) == d
  {
    if d != [] {
      DigitPrefixOfDigits(d[1..]);
    }
  }

  /** `parseInt` of a non-empty digit string is its value. */
  lemma ParseIntOfDigits(d: string)
    requires d != [] && AllDigits(d)
    ensures ParseInt(d) == Some(DigitsValue(d))
  {
    DigitPrefixOfDigits(d);
    assert TrimStart(d) == d by { assert !IsJsSpace(d[0]); }
    assert SignFree(d) == d;
  }

  /** `parseInt` reads back the decimal text of a natural number, with or
      without one leading `0`. */
  lemma ParseIntOfNatString(n: nat)
    ensures ParseInt(NatToString(n)) == Some(n)
    ensures ParseInt("0" + NatToString(n)) == Some(n)
  {
    var s := NatToString(n);
    DigitsValueOfNatToString(n);
    ParseIntOfDigits(s);
    ParseIntOfPadded(s);
  }

  /** One leading `0` does not change what `parseInt` reads. */
  lemma ParseIntOfPadded(d: string)
    requires AllDigits(d)
    ensures AllDigits("0" + d) && ParseInt("0" + d) == Some(DigitsValue(d))
  {
    var z := "0" + d;
    assert forall i :: 1 <= i < |z| ==> z[i] == d[i - 1];
    DigitsValueLeadingZero(d);
    ParseIntOfDigits(z);
  }

  /** `parseInt` inverts `${n}` on every integer. */
  lemma ParseIntOfIntToString(n: int)
    ensures ParseInt(IntToString(n)) == Some(n)
  {
    if n >= 0 {
      assert IntToString(n) == NatToString(n);
      ParseIntOfNatString(n);
    } else {
      var s := NatToString(-n);
      DigitPrefixOfDigits(s);
      DigitsValueOfNatToString(-n);
      var t := "-" + s;
      assert IntToString(n) == t;
      assert TrimStart(t) == t by { assert !IsJsSpace(t[0]); }
      assert SignFree(t) == s && t[0] == '-';
      assert DigitPrefix(s) == s && s != [];
    }
  }
}

=== FILE: ui.dfy ===
/** The number logic and state updates of `src/App.jsx`: ball labels, the
    bounded unique-number draw, the per-game draws of a roll, the reset on a
    game change and the scratch-card click. React's state is one immutable
    value; each handler maps it to the next one. */
module Ui {
  import opened Common
  import opened Text
  import opened Sorting

  /** The three tabs of the page. */
  datatype UiGame = SuperLotto | Lotto649 | Scratch

  /** `{ gameType, numbers, specialNumber, isRolling, scratchStates }`. */
  datatype UiState = UiState(
    game: UiGame,
    numbers: seq<int>,
    special: Option<int>,
    rolling: bool,
    scratch: seq<bool>)

  /** `formatNumber`: `??` for `null`, a leading `0` below 10, the plain
      decimal text otherwise. */
  function FormatNumber(n: Option<int>): (s: string)
    ensures n.None? ==> s == "??"
    ensures n.Some? && n.value >= 10 ==> s == IntToString(n.value)
    ensures n.Some? && n.value < 10 ==> s == "0" + IntToString(n.value)
    ensures n.Some? && 0 <= n.value ==> ParseInt(s) == Some(n.value)
    ensures n.Some? && 0 <= n.value < 100 ==> |s| == 2
  {
    match n
    case None => "??"
    case Some(v) =>
      var m: nat := if v >= 0 then v else 0;
      ParseIntOfNatString(m);
      if v < 10 then "0" + IntToString(v) else IntToString(v)
  }

  /** The cap on the loop of `generateUniqueNumbers`. */
  const Safety: nat := 1000

  /** `Math.floor(r * (max - min + 1)) + min`. */
  function PickValue(r: Random, min: int, max: int): (v: int)
    requires min <= max
    ensures min <= v <= max
  {
    Scale(r, max - min + 1) + min
  }

  /** The values of the first `k` loop iterations, one oracle value each. */
  function Picks(oracle: seq<Random>, k: nat, min: int, max: int): (p: seq<int>)
    requires min <= max
    ensures |p| == k && AllIn(p, min, max)
  {
    if k == 0 then [] else Picks(oracle, k - 1, min, max) + [PickValue(At(oracle, k - 1), min, max)]
  }

  /** After `k` iterations the Set still holds fewer than `count` values,
      so the loop runs again if the cap allows. */
  predicate StillShort(oracle: seq<Random>, k: nat, count: int, min: int, max: int)
    requires min <= max
  {
    |Dedup(Picks(oracle, k, min, max))| < count
  }

  /** The `while (nums.size < count && safety < 1000)` loop from iteration
      `safety` on, with the set so far in insertion order. */
  function Gather(nums: seq<int>, count: int, min: int, max: int, safety: nat, oracle: seq<Random>): (r: Gathered)
    requires min <= max && safety <= Safety
    requires nums == Dedup(Picks(oracle, safety, min, max))
    ensures safety <= r.iterations <= Safety
    ensures r.nums == Dedup(Picks(oracle, r.iterations, min, max))
    ensures |r.nums| >= count || r.iterations == Safety
    ensures |r.nums| <= if count > |nums| then count else |nums|
    decreases Safety - safety
  {
    if |nums| < count && safety < Safety then
      var x := PickValue(At(oracle, safety), min, max);
      var next := if x in nums then nums else nums + [x];
      GatherStep(nums, min, max, safety, oracle);
      Gather(next, count, min, max, safety + 1, oracle)
    else Gathered(nums, safety)
  }

  /** One loop iteration adds its value to the Set unless it is there. */
  lemma GatherStep(nums: seq<int>, min: int, max: int, k: nat, oracle: seq<Random>)
    requires min <= max && nums == Dedup(Picks(oracle, k, min, max))
    ensures var x := PickValue(At(oracle, k), min, max);
      Dedup(Picks(oracle, k + 1, min, max)) == if x in nums then nums else nums + [x]
  {
    var x := PickValue(At(oracle, k), min, max);
    var p := Picks(oracle, k, min, max);
    assert Picks(oracle, k + 1, min, max) == p + [x];
    DedupOntoSnoc([], p, x);
  }

  /** The loop only runs another iteration on a Set that is still short:
      when it ran at all, its last iteration began short. */
  lemma {:induction false} GatherLastShort(nums: seq<int>, count: int, min: int, max: int, safety: nat, oracle: seq<Random>)
    requires min <= max && safety <= Safety
    requires nums == Dedup(Picks(oracle, safety, min, max))
    ensures var r := Gather(nums, count, min, max, safety, oracle);
      forall j :: safety <= j && j + 1 == r.iterations ==> StillShort(oracle, j, count, min, max)
    decreases Safety - safety
  {
    var next := GatherUnfold(nums, count, min, max, safety, oracle);
    if |nums| < count && safety < Safety {
      GatherLastShort(next, count, min, max, safety + 1, oracle);
      assert StillShort(oracle, safety, count, min, max);
      LastShortStep(oracle, count, min, max, safety, Gather(next, count, min, max, safety + 1, oracle).iterations);
    }
  }

  /** The step case: short before iteration `safety`, and short before the
      last iteration if that came later. */
  lemma LastShortStep(oracle: seq<Random>, count: int, min: int, max: int, safety: nat, n: nat)
    requires min <= max && StillShort(oracle, safety, count, min, max)
    requires forall j :: safety + 1 <= j && j + 1 == n ==> StillShort(oracle, j, count, min, max)
    ensures forall j :: safety <= j && j + 1 == n ==> StillShort(oracle, j, count, min, max)
  {
  }

  /** One iteration of the loop: the Set it leaves, and the loop's result in
      terms of the rest of the loop. */
  lemma GatherUnfold(nums: seq<int>, count: int, min: int, max: int, safety: nat, oracle: seq<Random>)
      returns (next: seq<int>)
    requires min <= max && safety <= Safety
    requires nums == Dedup(Picks(oracle, safety, min, max))
    ensures |nums| < count && safety < Safety ==>
      && next == Dedup(Picks(oracle, safety + 1, min, max))
      && Gather(nums, count, min, max, safety, oracle) == Gather(next, count, min, max, safety + 1, oracle)
    ensures !(|nums| < count && safety < Safety) ==>
      Gather(nums, count, min, max, safety, oracle) == Gathered(nums, safety)
  {
    var x := PickValue(At(oracle, safety), min, max);
    next := if x in nums then nums else nums + [x];
    if |nums| < count && safety < Safety {
      GatherStep(nums, min, max, safety, oracle);
    }
  }

  /** The Set only grows from one iteration to the next. */
  lemma {:induction false} SetGrows(oracle: seq<Random>, k: nat, m: nat, min: int, max: int)
    requires min <= max && k <= m
    ensures |Dedup(Picks(oracle, k, min, max))| <= |Dedup(Picks(oracle, m, min, max))|
    decreases m - k
  {
    if k < m {
      GatherStep(Dedup(Picks(oracle, k, min, max)), min, max, k, oracle);
      SetGrows(oracle, k + 1, m, min, max);
    }
  }

  /** The Set when the loop stops, and the number of iterations it ran. */
  datatype Gathered = Gathered(nums: seq<int>, iterations: nat)

  /** The result of `generateUniqueNumbers`, the iterations it ran and the
      unread oracle. */
  datatype Generated = Generated(values: seq<int>, iterations: nat, rest: seq<Random>)

  /** `generateUniqueNumbers(count, min, max, sort)`: at most `count`
      distinct values of `min..max`; fewer only when the 1000 iterations ran
      out. Unsorted, the values keep the order in which they first came up. */
  function GenerateUniqueNumbers(count: int, min: int, max: int, sort: bool, oracle: seq<Random>): (g: Generated)
    requires min <= max
    ensures Distinct(g.values) && AllIn(g.values, min, max)
    ensures |g.values| <= (if count > 0 then count else 0)
    ensures g.iterations <= Safety
    ensures |g.values| < count ==> g.iterations == Safety
    ensures forall k :: 0 <= k < g.iterations ==> StillShort(oracle, k, count, min, max)
    ensures g.rest == Drop(oracle, g.iterations)
    ensures !sort ==> g.values == Dedup(Picks(oracle, g.iterations, min, max))
    ensures sort ==> g.values == SortAscending(Dedup(Picks(oracle, g.iterations, min, max)))
    ensures sort ==> Ascending(g.values)
  {
    var r := Gather([], count, min, max, 0, oracle);
    GatherLastShort([], count, min, max, 0, oracle);
    ShortBeforeStop(oracle, r.iterations, count, min, max);
    DedupInRange(Picks(oracle, r.iterations, min, max), min, max);
    Generated(Arrange(r.nums, sort, min, max), r.iterations, Drop(oracle, r.iterations))
  }

  /** A loop that ran its last iteration on a short Set was short on every
      earlier one too. */
  lemma ShortBeforeStop(oracle: seq<Random>, n: nat, count: int, min: int, max: int)
    requires min <= max
    requires forall j: nat :: j + 1 == n ==> StillShort(oracle, j, count, min, max)
    ensures forall k :: 0 <= k < n ==> StillShort(oracle, k, count, min, max)
  {
    forall k | 0 <= k < n ensures StillShort(oracle, k, count, min, max) {
      var last: nat := n - 1;
      assert StillShort(oracle, last, count, min, max);
      SetGrows(oracle, k, last, min, max);
    }
  }

  /** `Array.from(nums)`, sorted numerically when asked. */
  function Arrange(xs: seq<int>, sort: bool, min: int, max: int): (v: seq<int>)
    requires Distinct(xs) && AllIn(xs, min, max)
    ensures Distinct(v) && AllIn(v, min, max) && |v| == |xs|
    ensures !sort ==> v == xs
    ensures sort ==> v == SortAscending(xs) && Ascending(v)
  {
    SortDistinct(xs);
    SortInRange(xs, min, max);
    if sort then SortAscending(xs) else xs
  }

  /** The number of scratch cards. */
  const ScratchCards: nat := 6

  /** `Array(6).fill(true)`. */
  function AllCovered(): (c: seq<bool>)
    ensures |c| == ScratchCards && forall i :: 0 <= i < |c| ==> c[i]
  {
    seq(ScratchCards, _ => true)
  }

  /** The effect on `[gameType]`: clearing the board. */
  function Reset(g: UiGame): (s: UiState)
    ensures s.game == g && s.numbers == [] && s.special.None? && !s.rolling
    ensures |s.scratch| == ScratchCards && forall i :: 0 <= i < |s.scratch| ==> s.scratch[i]
  {
    UiState(g, [], None, false, AllCovered())
  }

  /** The state after mounting: the effect runs once for `superLotto`. */
  function Initial(): (s: UiState)
    ensures s.game == SuperLotto && s.numbers == [] && s.special.None? && !s.rolling
    ensures |s.scratch| == ScratchCards && forall i :: 0 <= i < |s.scratch| ==> s.scratch[i]
  {
    Reset(SuperLotto)
  }

  /** `setGameType(g)`: React skips the update and its effect when the game
      does not change; otherwise the effect clears the board. */
  function SelectGame(s: UiState, g: UiGame): (t: UiState)
    ensures t.game == g
    ensures g == s.game ==> t == s
    ensures g != s.game ==> t.numbers == [] && t.special.None? && !t.rolling
    ensures g != s.game ==> |t.scratch| == ScratchCards && forall i :: 0 <= i < |t.scratch| ==> t.scratch[i]
  {
    if g == s.game then s else Reset(g)
  }

  /** Switching to another game forgets everything about the board. */
  lemma SelectGameForgets(s1: UiState, s2: UiState, g: UiGame)
    requires s1.game != g && s2.game != g
    ensures SelectGame(s1, g) == SelectGame(s2, g)
  {
  }

  /** `handleGenerate` before the interval starts: rolling begins, and the
      scratch cards are covered again for the scratch game. */
  function StartGenerate(s: UiState): (t: UiState)
    ensures t.rolling && t.game == s.game && t.numbers == s.numbers && t.special == s.special
    ensures s.game == Scratch ==> |t.scratch| == ScratchCards && forall i :: 0 <= i < |t.scratch| ==> t.scratch[i]
    ensures s.game != Scratch ==> t.scratch == s.scratch
  {
    s.(rolling := true, scratch := if s.game == Scratch then AllCovered() else s.scratch)
  }

  /** Up to three values of `1..99` followed by up to three of `100..999`. */
  predicate ScratchSplit(ns: seq<int>, k: nat) {
    && k <= |ns| && k <= 3 && |ns| - k <= 3
    && AllIn(ns[..k], 1, 99) && AllIn(ns[k..], 100, 999)
  }

  /** The scratch draw: two unsorted `generateUniqueNumbers` calls joined. */
  function ScratchNumbers(oracle: seq<Random>): (r: Drawn<seq<int>>)
    ensures ScratchSplit(r.value, ScratchSmallCount(oracle))
    ensures Distinct(r.value) && AllIn(r.value, 1, 999)
  {
    var small := GenerateUniqueNumbers(3, 1, 99, false, oracle);
    var big := GenerateUniqueNumbers(3, 100, 999, false, small.rest);
    JoinGroups(small.values, big.values);
    Drawn(small.values + big.values, big.rest)
  }

  /** Two groups from disjoint ranges join into one duplicate-free list. */
  lemma JoinGroups(small: seq<int>, big: seq<int>)
    requires |small| <= 3 && Distinct(small) && AllIn(small, 1, 99)
    requires |big| <= 3 && Distinct(big) && AllIn(big, 100, 999)
    ensures ScratchSplit(small + big, |small|)
    ensures Distinct(small + big) && AllIn(small + big, 1, 999)
  {
    var ns := small + big;
    assert ns[..|small|] == small && ns[|small|..] == big;
    assert forall i :: 0 <= i < |ns| ==> ns[i] == if i < |small| then small[i] else big[i - |small|];
  }

  /** How many values the `1..99` group of a scratch draw holds. */
  function ScratchSmallCount(oracle: seq<Random>): nat {
    |GenerateUniqueNumbers(3, 1, 99, false, oracle).values|
  }

  /** `Math.floor(Math.random() * 8) + 1`: the super-lotto second area. */
  function SpecialPick(oracle: seq<Random>): (r: Drawn<int>)
    ensures 1 <= r.value <= 8
  {
    Drawn(Scale(At(oracle, 0), 8) + 1, Drop(oracle, 1))
  }

  /** The balls a lotto game shows: ascending distinct values of its range,
      at most six. */
  predicate LottoBalls(ns: seq<int>, top: nat) {
    |ns| <= 6 && Distinct(ns) && Ascending(ns) && AllIn(ns, 1, top)
  }

  /** The per-game branch of `updateNumbers`, run on every 50 ms tick. */
  function RollStep(s: UiState, oracle: seq<Random>): (r: Drawn<UiState>)
    ensures r.value.game == s.game && r.value.rolling == s.rolling && r.value.scratch == s.scratch
    ensures s.game == SuperLotto ==> LottoBalls(r.value.numbers, 38)
    ensures s.game == SuperLotto ==> r.value.special.Some? && 1 <= r.value.special.value <= 8
    ensures s.game == Lotto649 ==> LottoBalls(r.value.numbers, 49) && r.value.special.None?
    ensures s.game == Scratch ==> r.value.special.None? && Distinct(r.value.numbers)
    ensures s.game == Scratch ==> exists k :: ScratchSplit(r.value.numbers, k)
  {
    match s.game
    case SuperLotto =>
      var g := GenerateUniqueNumbers(6, 1, 38, true, oracle);
      var sp := SpecialPick(g.rest);
      Drawn(s.(numbers := g.values, special := Some(sp.value)), sp.rest)
    case Lotto649 =>
      var g := GenerateUniqueNumbers(6, 1, 49, true, oracle);
      Drawn(s.(numbers := g.values, special := None), g.rest)
    case Scratch =>
      var sc := ScratchNumbers(oracle);
      Drawn(s.(numbers := sc.value, special := None), sc.rest)
  }

  /** `finalizeNumbers`: the last draw of a roll. Only super lotto draws a
      special here; the other games keep the one the roll left. */
  function FinalizeStep(s: UiState, oracle: seq<Random>): (r: Drawn<UiState>)
    ensures r.value.game == s.game && r.value.rolling == s.rolling && r.value.scratch == s.scratch
    ensures s.game == SuperLotto ==> LottoBalls(r.value.numbers, 38)
    ensures s.game == SuperLotto ==> r.value.special.Some? && 1 <= r.value.special.value <= 8
    ensures s.game == Lotto649 ==> LottoBalls(r.value.numbers, 49)
    ensures s.game != SuperLotto ==> r.value.special == s.special
    ensures s.game == Scratch ==> Distinct(r.value.numbers) && exists k :: ScratchSplit(r.value.numbers, k)
  {
    match s.game
    case SuperLotto =>
      var g := GenerateUniqueNumbers(6, 1, 38, true, oracle);
      var sp := SpecialPick(g.rest);
      Drawn(s.(numbers := g.values, special := Some(sp.value)), sp.rest)
    case Lotto649 =>
      var g := GenerateUniqueNumbers(6, 1, 49, true, oracle);
      Drawn(s.(numbers := g.values), g.rest)
    case Scratch =>
      var sc := ScratchNumbers(oracle);
      Drawn(s.(numbers := sc.value), sc.rest)
  }

  /** The roll duration in milliseconds. */
  const Duration: int := 800

  /** One interval tick, `elapsed` milliseconds after the start: a rolling
      draw, and past the duration the end of rolling and the final draw. */
  function Tick(s: UiState, elapsed: int, oracle: seq<Random>): (r: Drawn<UiState>)
    ensures r.value.game == s.game && r.value.scratch == s.scratch
    ensures r.value.rolling == (s.rolling && elapsed <= Duration)
    ensures s.game == Lotto649 ==> LottoBalls(r.value.numbers, 49) && r.value.special.None?
    ensures s.game == SuperLotto ==> LottoBalls(r.value.numbers, 38)
    ensures s.game == SuperLotto ==> r.value.special.Some? && 1 <= r.value.special.value <= 8
    ensures s.game == Scratch ==> r.value.special.None? && Distinct(r.value.numbers)
    ensures s.game == Scratch ==> exists k :: ScratchSplit(r.value.numbers, k)
  {
    var step := RollStep(s, oracle);
    if elapsed > Duration then FinalizeStep(step.value.(rolling := false), step.rest) else step
  }

  /** `handleScratchClick(index)`: ignored while rolling; otherwise card
      `index` is uncovered and nothing else changes. The page only offers
      the cards it shows, so `index` is a card. */
  function ScratchClick(s: UiState, index: nat): (t: UiState)
    requires index < |s.scratch|
    ensures s.rolling ==> t == s
    ensures !s.rolling ==> |t.scratch| == |s.scratch| && !t.scratch[index]
    ensures !s.rolling ==> forall i :: 0 <= i < |s.scratch| && i != index ==> t.scratch[i] == s.scratch[i]
    ensures t.(scratch := s.scratch) == s
  {
    if s.rolling then s else s.(scratch := s.scratch[index := false])
  }

  /** Uncovering a card twice is uncovering it once, and the order in which
      two cards are uncovered does not matter. */
  lemma ScratchClicksCommute(s: UiState, i: nat, j: nat)
    requires i < |s.scratch| && j < |s.scratch|
    ensures ScratchClick(ScratchClick(s, i), i) == ScratchClick(s, i)
    ensures ScratchClick(ScratchClick(s, i), j) == ScratchClick(ScratchClick(s, j), i)
  {
  }
}
